=== FILE: README.md ===
# sickle trimming core in Dafny

This project models the read-trimming core of sickle, a windowed adaptive
trimmer for FASTQ reads. It covers the following parts:

- **Quality decoding.** `get_quality_num` turns a quality byte into a score
  using the offset of the read's encoding. The encodings are the four of the
  `quality_type` enum, and their offsets come from the `quality_constants`
  table. The stand-alone `trim_single` and `trim_paired` tools have their own
  hard-coded decoders for three types. The two decoders are the same text, so
  one function models both.
- **`sliding_window`.** This function makes one left-to-right sweep with a
  running window sum. The 5' cut is the first passing base of the first
  window whose average reaches the quality threshold; once found, it is
  latched. Since the sweep stops at the first low window, the 5' cut always
  lies in the first window. The 3' cut is the first failing base of the first window whose
  average is below the threshold, or of the window that runs past the read.
  When a dip base shortens the kept span below the length threshold, both
  cuts become the sentinel `(-1, -1)`.
- **The 3'-only trimmer.** This is written inline in the read loops of
  `trim_single` and `trim_paired`. It uses the same sweep without the 5'
  search. It keeps the prefix up to the first failing base of the stopping
  window, and drops the read when that base lies before the length
  threshold.
- **The read loops.** `trim_single` writes every kept prefix as four lines.
  `trim_paired` reads its two files in lock step. It sends a pair whose mates
  are both kept to the two paired outputs, and a lone kept mate to the
  singles output. It stops at the end of the shorter file and reports which
  file ran out first. The command-line checks the core depends on are
  modelled too: the type names, negative thresholds, defaults, and a missing
  type.
- **`print_record` and `print_record_N`.** These write a record sliced by its
  cut sites, or a one-base `N` placeholder. The gzip variants format the same
  text into a compressed stream, so one function stands for each pair.

Several representation choices keep the model exact:

- **Bytes past the read.** The sweeps read the byte just past the quality
  string at index `N`, both in the slide and in the last window's scan. The
  model represents this as an explicit extra score. A record carries
  `qualEnd`, the byte the reader left after the quality string, and the
  scores `e` have length `N + 1`. All window lemmas state their conditions
  on `e`, including that last score.
- **No floating point.** For a window of `ws > 0` bases,
  `(double)total / ws < q` holds exactly when `total < q * ws`. The window
  size `(int)(0.1 * N)` is `N / 10`; when that is 0, the window is the whole
  read.
- **Signed `char`.** `(int) qualchar` reads a signed C `char`, as gcc does on
  x86, so bytes 128..255 decode as negative values.
- **Functions and methods.** Each imperative loop is a method proved against
  a recursive functional definition: first-index searches, window sums, the
  first stopping window and the first high window. Its loop invariants
  include the running-sum invariant of the sweep.

## Behaviour worth knowing

- **No early discard.** `sliding_window` does not discard a read shorter
  than the length threshold up front. The only length check follows a dip
  base (`Sliding.CleanReadCuts`).
- **No discard when no 5' window is found.** The 5' cut then stays 0, and
  the read is dropped only through the dip-base length check
  (`Sliding.AllLowRead`, `Sliding.LowFirstWindow`).
- **The 3' check is not gated on the 5' one.** Both run in the same
  iteration, the 5' check first (`Sliding.LowFirstWindow`).
- **The 5' cut lies in the first window.** A window that is not high is
  low, and a low window stops the sweep. So the 5' window is window 0 or
  there is none, and the 5' cut is below the window size
  (`Sliding.FivePrimeCutInFirstWindow`).
- **No range validation.** The decoders check nothing: every byte decodes
  (`Quality.GetQualityNum`).
- **A low head discards the read.** The Sanger read `!!!!!!!!II` with
  threshold 20 and length threshold 1 is discarded. Its one-base first
  window already fails, so the sweep stops at base 0, and the dip at 0
  leaves a span shorter than 1 (`Sliding.SangerTailOnlyReadDiscarded`).
- **No extra modes.** `sliding_window` takes four arguments: there is no
  no-five-prime mode and no N truncation.

## Model

| member | source | states |
|---|---|---|
| CText.SignedChar | src/sliding.c:18 | `(int) qualchar` on a signed `char`: bytes below 128 keep their value and all results lie in -128..127 |
| CText.CString | src/print_record.c:12 | `%s` prints a prefix of the buffer that holds no NUL and stops only at a NUL |
| CText.CStringUpTo | src/print_record.c:15 | `%.*s` prints a NUL-free prefix of at most the precision, stopping short of it only at a NUL or at the end of the buffer |
| Quality.TypeIndexBijective | src/sickle.h:64-69 | the enum values 0..3 name four distinct encodings, and every value names one |
| Quality.QualityTable | src/sickle.h:82-88 | four rows of three columns; offsets 0, 33, 64, 64; every legal range is non-empty and inside 1..127; Sanger and Illumina start their range at the offset; Solexa starts below it |
| Quality.GetQualityNum | src/sliding.c:10-19 | every byte decodes (no range check), to a score in -192..127; a legal byte decodes into its encoding's score range |
| Quality.DecodeEncode | src/sliding.c:18 | on an encoding's legal bytes, decoding is undone by adding the offset back |
| Quality.EncodeDecode | src/sickle.h:82-88 | every score in an encoding's range is what the byte score + offset decodes to |
| Quality.ScoreRanges | src/sickle.h:84-87 | Sanger '!'..'~' decode to 0..93, Illumina 0..46, Phred 4..60, Solexa -6..48 |
| LegacyQuality.LegacyQualityNum | src/trim_single.c:86-90 | the tools' hard-coded decoder equals the table-driven `get_quality_num` of the corresponding encoding, for every byte |
| LegacyQuality.ParseQualType | src/trim_paired.c:138-146 | a type is returned only for its own name |
| LegacyQuality.ParseQualTypeExact | src/trim_single.c:120-128 | `-t` accepts exactly "illumina", "phred" and "sanger", each naming its own type; every other name is an error |
| LegacyQuality.ApplyOption | src/trim_single.c:120-152 | an option succeeds iff its value is valid (known type name, non-negative threshold); a failure reports that option's error; `-t` sets only the type, `-q` only the quality threshold, `-l` only the length threshold, each to the option's value |
| LegacyQuality.ApplyOptions | src/trim_single.c:103-169 | options succeed iff all are valid; the first bad one decides the error; thresholds stay non-negative; a type is set iff some `-t` was given |
| LegacyQuality.ApplyOptionsProvenance | src/trim_single.c:120-152 | every setting after the options is either its starting value or the value of some option on the command line |
| LegacyQuality.Configure | src/trim_single.c:172-174 | a run starts iff every option is valid and a quality type was given; the type is named by some `-t`, and each threshold is 20 or the value of some `-q` / `-l` |
| LegacyQuality.LastThresholdWins | src/trim_single.c:138-144 | a later `-q` overrides any earlier one, in the options and in the started run |
| LegacyQuality.LastLengthThresholdWins | src/trim_single.c:146-152 | a later `-l` overrides any earlier one, in the options and in the started run |
| LegacyQuality.LastQualTypeWins | src/trim_single.c:120-128 | a later `-t` overrides any earlier type, leaves both thresholds alone, and lets the run start |
| LegacyQuality.DefaultThresholds | src/trim_single.c:56-57 | without `-q` and `-l` both thresholds are 20 |
| Windows.WindowSize | src/sliding.c:24-35 | a non-empty read has a window of 1..N bases; reads of 1..9 bases use the whole read; from 10 bases on it is the floor of N/10; an empty read has window 0 |
| Windows.SumSlide | src/sliding.c:83-85 | subtracting the leaving score and adding the entering one gives the sum of the window one base to the right |
| Windows.FirstAtLeastSpec | src/sliding.c:48-53 | the 5' scan finds the first base of the window that reaches the threshold, and finds none only when none does |
| Windows.FirstBelowSpec | src/sliding.c:65-67 | the 3' scan finds the first base of the window that fails the threshold, and finds none only when all pass |
| Windows.StopWindowSpec | src/sliding.c:61-62 | the sweep stops at the first window whose average is below the threshold or that runs past the read, and runs out only when no window before N stops it |
| Windows.HighWindowSpec | src/sliding.c:45 | the 5' window is the first whose average reaches the threshold, and there is none only when no window qualifies |
| Windows.HighWindowHasHighBase | src/sliding.c:45-55 | a window whose average reaches the threshold always holds a base that reaches it |
| Windows.LowWindowHasLowBase | src/sliding.c:61-67 | a window whose average is below the threshold always holds a failing base |
| Windows.ScanAtLeast | src/sliding.c:48-53 | the scan loop returns the first passing index of the window |
| Windows.ScanBelow | src/trim_single.c:207-213 | the scan loop returns the first failing index of the window |
| Windows.InitialWindowTotal | src/sliding.c:37-39 | the first loop sums the scores of the first window |
| Windows.SlideWindow | src/trim_single.c:218-221 | the slide keeps `window_total` equal to the sum of the window one base further, reading index N at the last step |
| Sliding.SlidingCuts | src/sliding.c:22-92 | -1 appears only as the pair sentinel; kept cuts lie in 0..N, in order when the length threshold is non-negative; a 5' cut past 0 sits on a passing base and a 3' cut before N on a failing base; a kept pair whose 3' cut is a dip base spans at least the length threshold |
| Sliding.SlidingDiscardRule | src/sliding.c:61-80 | a read is discarded iff the sweep stops at some window, that window holds a failing base, and the span from the 5' cut to that first failing base is shorter than the length threshold |
| Sliding.FivePrimeCutInFirstWindow | src/sliding.c:41-62 | the 5' cut always lies in the first window, and moves past 0 only when the first window's average reaches the threshold |
| Sliding.SlidingWindow | src/sliding.c:22-92 | the imperative sweep returns exactly the cut sites of the functional definition |
| Sliding.SweepWindows | src/sliding.c:41-86 | with `window_start == i` and `window_total` the sum of the current window at every step, the loop leaves at the first stopping window with the latched 5' cut of the windows seen so far |
| Sliding.FivePrimeAt | src/sliding.c:45-56 | the 5' flag latches at the first window whose average reaches the threshold; the cut moves only then, to that window's first passing base |
| Sliding.ThreePrimeAt | src/sliding.c:61-80 | at the stopping window the 3' cut becomes its first failing base, both cuts become -1 when that leaves fewer bases than the length threshold, and with no failing base the cut stays N |
| Sliding.FivePrimeCutIsFirstPassingBase | src/sliding.c:29-56 | a kept 5' cut past 0 is the first passing base in the first window whose average reaches the threshold, with every earlier window below it |
| Sliding.ThreePrimeCutIsFirstDip | src/sliding.c:28-80 | a kept 3' cut before N is the first failing base in the first stopping window, with every earlier window passing |
| Sliding.FivePrimeCutFound | src/sliding.c:45-53 | conversely, when the first window's average reaches the threshold, a kept read's 5' cut is that window's first passing base |
| Sliding.ThreePrimeCutFound | src/sliding.c:61-75 | conversely, when the first stopping window holds a failing base, a kept read's 3' cut is the first such base |
| Sliding.CleanReadCuts | src/sliding.c:69-75 | a read whose bases all pass is kept whole, except when its window spans two or more bases, the byte past it fails and it is shorter than the length threshold; with one-base windows no length check happens |
| Sliding.LowFirstWindow | src/sliding.c:45-62 | the 3' check is not gated on the 5' one: a low first window stops the sweep at once with the 5' cut still 0, keeping the prefix up to the first failing base or discarding it by the length check |
| Sliding.AllLowRead | src/sliding.c:29-75 | a read whose bases all fail is discarded iff the length threshold is positive, else kept as the empty span (0, 0) |
| Sliding.SangerTailOnlyReadDiscarded | src/sliding.c:41-80 | the Sanger read `!!!!!!!!II` under threshold 20 and length threshold 1 is discarded |
| Sliding.SweepEnd | src/sliding.c:41-62 | windows of two or more bases always stop the sweep, and the window that runs past the read ends at index N; one-base windows never run past it |
| ThreePrime.PrefixCut | src/trim_single.c:181-215 | the kept prefix lies within the read; a cut short of N is a failing base and the read is kept iff that cut reaches the length threshold; a read with cut N is dropped only when the byte past it fails and N is below the length threshold; an empty read is always kept with cut 0 |
| ThreePrime.StopSweep | src/trim_single.c:192-224 | the sweep keeps the running-sum invariant and stops at the first low-average or overrunning window |
| ThreePrime.TrimPrefixWith | src/trim_paired.c:224-266 | the per-mate body computes the prefix trim of the functional definition |
| ThreePrime.TrimPrefix | src/trim_single.c:179-224 | the per-read body, with the tools' decoder, computes `p1cut` and `p1flag` as the functional prefix trim |
| ThreePrime.LegacyScoresAgree | src/trim_paired.c:92-96 | the paired tool's decoder gives every read the same scores as the table-driven decoder of the matching encoding |
| ThreePrime.PrefixCutIsFirstDip | src/trim_single.c:203-215 | a cut short of N is the first failing base in the first stopping window, with every earlier window passing |
| ThreePrime.PrefixCutFound | src/trim_single.c:203-215 | conversely, when the first stopping window holds a failing base, the cut is the first such base and the read is kept iff that base reaches the length threshold |
| ThreePrime.SlidingKeepsOnlyWhatPrefixKeeps | src/trim_single.c:197-216 | every read `sliding_window` keeps, the 3'-only trimmer keeps too, with the same 3' cut |
| ThreePrime.PrefixDropImpliesDiscard | src/trim_single.c:207-213 | a read the 3'-only trimmer drops is discarded by `sliding_window` too |
| ThreePrime.CleanReadPrefix | src/trim_single.c:185-213 | a read whose bases all pass keeps its full length, and is dropped only when its window spans two or more bases, the byte past it fails and it is shorter than the length threshold |
| Records.Header | src/print_record.c:12-14 | the header starts with '@' and is `@name` alone when the comment is empty |
| Records.PrintRecord | src/print_record.c:20-27 | the gzip variant writes the same text: a record that starts with '@' and ends with a newline |
| Records.PrintRecordLines | src/print_record.c:11-18 | the record reads back as the header, `seq[five, three)`, a bare "+" and `qual[five, three)`, the two slices both of length three - five |
| Records.PrintRecordN | src/print_record.c:36-41 | the gzip placeholder writes the same text: it starts with '@' and ends with a newline |
| Records.PrintRecordNLines | src/print_record.c:29-34 | the placeholder reads back as the header, "N", "+" and the encoding's lowest legal byte, which decodes to the lowest score |
| Records.PrintPrefix | src/trim_paired.c:314-317 | the four `fprintf`s of a kept mate start with '@' and end with a newline |
| Records.PrintPrefixLines | src/trim_single.c:227-232 | a kept read reads back as `@name`, the first `cut` bases, `+name`, the first `cut` qualities |
| Records.KeptCutsSliceable | src/print_record.c:15 | for a non-negative length threshold (both tools reject a negative `-l`), the kept cut sites of `sliding_window` satisfy 0 <= five <= three <= N, so only the sentinel cannot be printed |
| SingleEnd.Decide | src/trim_single.c:185-215 | a read's cut lies within it; a cut short of the read is a failing base and the read is kept iff the cut reaches the length threshold; a read cut at its end is dropped only when the byte past it fails and the read is shorter than the length threshold; an empty read is always kept |
| SingleEnd.Emit | src/trim_single.c:227-232 | the loop writes something for a read iff the read is kept |
| SingleEnd.TrimRead | src/trim_single.c:179-232 | one loop iteration writes the read's emitted text |
| SingleEnd.TrimSingle | src/trim_single.c:177-236 | the loop writes every read's text in input order |
| SingleEnd.RunTrimSingle | src/trim_single.c:103-236 | the tool runs iff the options are valid and name a type, and then writes the output of the read loop; otherwise it stops with the option error |
| SingleEnd.EmitAsLines | src/trim_single.c:227-232 | a kept read contributes four newline-free lines and a dropped read none |
| SingleEnd.SingleOutputUnlines | src/trim_single.c:179-236 | the output is the newline-framed lines of the kept reads, four per kept read |
| SingleEnd.SingleOutputLines | src/trim_single.c:228-231 | the output reads back as `@name`, kept bases, `+name`, kept qualities for each kept read in order, 4 x kept lines in all |
| SingleEnd.SingleOutputAppend | src/trim_single.c:179 | reads are handled independently: the output of two batches is the concatenation of their outputs |
| PairedEnd.RoutePair | src/trim_paired.c:313-337 | mate 1 goes to out1 and mate 2 to out2 iff both are kept; a lone kept mate goes to singles; nothing is written when neither is kept; out1 and out2 grow together |
| PairedEnd.RouteStep | src/trim_paired.c:224-337 | the pair body, both mates trimmed with fresh window state, routes as the functional definition |
| PairedEnd.TrimPairedRun | src/trim_paired.c:216-222 | the run reports that file 2 is shorter iff it has fewer records, that file 1 is shorter iff it has fewer, and nothing iff they match |
| PairedEnd.TrimPaired | src/trim_paired.c:216-345 | the lock-step loop and its post-loop check compute the functional run |
| PairedEnd.RunTrimPaired | src/trim_paired.c:206-216 | the tool runs iff the options are valid and name a type, then performs the paired run; otherwise it stops with the option error |
| PairedEnd.MateFileHoldsKeptPairs | src/trim_paired.c:319-322 | each paired file holds its mate of every pair whose mates are both kept, as the single-end tool would write those reads |
| PairedEnd.PairedOutputLockStep | src/trim_paired.c:313-323 | the two paired files hold the mates of the same pairs in the same order |
| PairedEnd.SinglesAreOrphans | src/trim_paired.c:325-337 | the singles file holds exactly the kept mates whose partner was dropped, in input order |
| PairedEnd.KeptMatesWrittenOnce | src/trim_paired.c:313-337 | kept reads of both files number twice the kept pairs plus the orphans: no kept mate is lost or written twice |
| PairedEnd.ExtraRecordsIgnored | src/trim_paired.c:340-345 | records past the end of the shorter file change nothing in the output, and the longer file is reported |

## Left out

- src/vector.c (the SSE2 variant) is not part of this model. Its logic does not match the scalar trimmer, so it is not a behavioural target.
- src/sickle.c (the `pe`/`se` dispatch) and src/print_record.h (prototypes only) are not part of this model.
- The `typenames` table of src/sickle.h is not used by the modelled code and is not modelled.
- The extra parameters of the 7-argument prototype in src/sickle.h (`no_fiveprime`, `trunc_n`, `debug`) have no definition in the code and are not modelled.
- The FASTQ reader (kseq) and zlib are external. A record is given as name, comment, bases, qualities and the byte after the quality string. The value of that byte is a parameter, since the reader is not shown.
- The reader's error return for a quality string whose length differs from the sequence ends the C loop. This is not modelled: the window size is computed from the quality length.
- File opening, `-f`/`-o`/`-r`/`-p`/`-s`, usage and version text, and the `-d` debug output are left out as I/O. Options are given already split, with `-q`/`-l` values as integers, so `atoi` parsing is not modelled.
- Standard error messages are modelled only as the `Mismatch` value and `CliError`. The exit status is left out.
- The `(double)` average comparisons and `(int)(0.1 * N)` are replaced by exactly equal integer expressions.
- `int` overflow of `window_total` and of the read length is not modelled: scores are unbounded integers. This only matters for reads of hundreds of millions of bases.
- Records.PrintRecordLines, Records.PrintRecordNLines, Records.PrintPrefixLines: the line structure is stated only for records whose name, comment, bases and qualities hold no NUL and no newline. Otherwise `%s` stops early or the text splits differently; the byte-level definitions still cover every record.
- SingleEnd.SingleOutputLines: the same restriction applies to every read of the input.
- Records.PrintRecord, Records.PrintRecordN, Records.PrintPrefix: their own contracts state only the framing of the record. The line-by-line contents are in the `...Lines` lemmas.

=== FILE: ctext.dfy ===
/** Bytes, C `char` conversion, NUL-terminated strings and newline-framed text:
    the small amount of C string semantics the trimmers and printers rely on. */
module CText {

  /** One byte of a read's buffer or of an output stream. */
  newtype byte = x: int | 0 <= x < 256

  const NUL: byte := 0
  const NEWLINE: byte := 10      // '\n'
  const SPACE: byte := 32        // ' '
  const PLUS: byte := 43         // '+'
  const AT: byte := 64           // '@'
  const BASE_N: byte := 78       // 'N'

  /** `(int) c` for a C `char`. The model takes `char` to be signed, as it is
      with gcc on x86, so bytes 128..255 read as -128..-1. */
  function SignedChar(c: byte): (v: int)
    ensures -128 <= v < 128
    ensures c < 128 ==> v == c as int
  {
    if c < 128 then c as int else c as int - 256
  }

  /** The signed reading of a byte is its value modulo 256, so reading it
      back as unsigned gives the byte. */
  lemma SignedCharModulo(c: byte)
    ensures (SignedChar(c) - c as int) % 256 == 0
    ensures (SignedChar(c) + 256) % 256 == c as int
  {
  }

  /** What `%s` prints: the bytes up to, not including, the first NUL. */
  function CString(s: seq<byte>): (r: seq<byte>)
    ensures r <= s
    ensures NUL !in r
    ensures |r| < |s| ==> s[|r|] == NUL
  {
    if |s| == 0 || s[0] == NUL then [] else [s[0]] + CString(s[1..])
  }

  /** What `%.*s` prints with precision `n`: at most `n` bytes, stopping
      early at a NUL. */
  function CStringUpTo(s: seq<byte>, n: nat): (r: seq<byte>)
    ensures r <= s && |r| <= n
    ensures NUL !in r
    ensures |r| < n && |r| < |s| ==> s[|r|] == NUL
  {
    CString(if n <= |s| then s[..n] else s)
  }

  /** A string without NUL bytes prints in full. */
  lemma CStringOfPlain(s: seq<byte>)
    requires NUL !in s
    ensures CString(s) == s
  {
    var r := CString(s);
    assert forall i :: 0 <= i < |s| ==> s[i] in s;
  }

  /** Appending nothing leaves a sequence as it is. */
  lemma AppendNothing<T>(s: seq<T>)
    ensures s + [] == s
  {
  }

  /** Text made of lines, each one followed by a newline. */
  function Unlines(ls: seq<seq<byte>>): seq<byte>
  {
    if |ls| == 0 then [] else ls[0] + [NEWLINE] + Unlines(ls[1..])
  }

  /** Framing two runs of lines one after the other frames their concatenation. */
  lemma {:induction false} UnlinesAppend(a: seq<seq<byte>>, b: seq<seq<byte>>)
    ensures Unlines(a + b) == Unlines(a) + Unlines(b)
  {
    if |a| > 0 {
      assert (a + b)[1..] == a[1..] + b;
      UnlinesAppend(a[1..], b);
    } else {
      assert a + b == b;
    }
  }

  /** Four lines of text, written out. */
  lemma UnlinesFour(a: seq<byte>, b: seq<byte>, c: seq<byte>, d: seq<byte>)
    ensures Unlines([a, b, c, d]) == a + [NEWLINE] + b + [NEWLINE] + c + [NEWLINE] + d + [NEWLINE]
  {
    assert [a, b, c, d][1..] == [b, c, d];
    assert [b, c, d][1..] == [c, d];
    assert [c, d][1..] == [d];
    assert Unlines([d]) == d + [NEWLINE] + Unlines([]);
    assert Unlines([c, d]) == c + [NEWLINE] + Unlines([d]);
    assert Unlines([b, c, d]) == b + [NEWLINE] + Unlines([c, d]);
  }

  /** Four newline-free lines framed by newlines read back as those lines. */
  lemma LinesFour(a: seq<byte>, b: seq<byte>, c: seq<byte>, d: seq<byte>)
    requires NEWLINE !in a && NEWLINE !in b && NEWLINE !in c && NEWLINE !in d
    ensures Lines(a + [NEWLINE] + b + [NEWLINE] + c + [NEWLINE] + d + [NEWLINE]) == [a, b, c, d]
  {
    UnlinesFour(a, b, c, d);
    LinesOfUnlines([a, b, c, d]);
  }

  /** Index of the first newline in `s`, or `|s|` when there is none. */
  function NewlineIndex(s: seq<byte>): (k: nat)
    ensures k <= |s|
    ensures NEWLINE !in s[..k]
    ensures k < |s| ==> s[k] == NEWLINE
  {
    if |s| == 0 || s[0] == NEWLINE then 0
    else
      var k := 1 + NewlineIndex(s[1..]);
      assert s[..k] == [s[0]] + s[1..][..k - 1];
      k
  }

  /** Splits text into its lines, dropping the newlines; a final line without
      a newline is kept as it is. */
  function Lines(s: seq<byte>): seq<seq<byte>>
    decreases |s|
  {
    if |s| == 0 then []
    else
      var k := NewlineIndex(s);
      if k == |s| then [s] else [s[..k]] + Lines(s[k + 1..])
  }

  /** Reading the lines back out of newline-framed text gives the lines that
      were written, as long as none of them holds a newline itself. */
  lemma {:induction false} LinesOfUnlines(ls: seq<seq<byte>>)
    requires forall i :: 0 <= i < |ls| ==> NEWLINE !in ls[i]
    ensures Lines(Unlines(ls)) == ls
  {
    if |ls| > 0 {
      var s := Unlines(ls);
      var rest := Unlines(ls[1..]);
      assert s == ls[0] + [NEWLINE] + rest;
      var k := NewlineIndex(s);
      assert s[|ls[0]|] == NEWLINE;
      assert forall i :: 0 <= i < |ls[0]| ==> s[i] == ls[0][i] && ls[0][i] in ls[0];
      assert forall i :: 0 <= i < k ==> s[..k][i] == s[i];
      assert k == |ls[0]|;
      assert s[..k] == ls[0];
      assert s[k + 1..] == rest;
      LinesOfUnlines(ls[1..]);
      assert [ls[0]] + ls[1..] == ls;
    }
  }
}

=== FILE: legacy_quality.dfy ===
/** The quality handling of the stand-alone `trim_single` and `trim_paired`
    tools: three numbered quality types chosen by name, their hard-coded
    decoder, and the checks made on the command-line thresholds. */
module LegacyQuality {
  import opened Results
  import opened CText
  import Quality

  /** ILLUMINA_TYPE = 1, PHRED_TYPE = 2, SANGER_TYPE = 3. */
  datatype LegacyType = LegacyIllumina | LegacyPhred | LegacySanger {

    function Code(): int {
      match this
      case LegacyIllumina => 1
      case LegacyPhred => 2
      case LegacySanger => 3
    }

    /** The name `-t` accepts for this type. */
    function Name(): string {
      match this
      case LegacyIllumina => "illumina"
      case LegacyPhred => "phred"
      case LegacySanger => "sanger"
    }

    /** The encoding of `sickle.h` that this type stands for. */
    function Modern(): Quality.QualityType {
      match this
      case LegacyIllumina => Quality.Illumina
      case LegacyPhred => Quality.Phred
      case LegacySanger => Quality.Sanger
    }
  }

  /** The tools' own `get_quality_num`: Illumina subtracts 64, Phred is raw,
      Sanger subtracts 33. For every byte it agrees with the table-driven
      decoder of the corresponding encoding. */
  function LegacyQualityNum(qualChar: byte, t: LegacyType): (score: int)
    ensures score == Quality.GetQualityNum(qualChar, t.Modern())
  {
    match t
    case LegacyIllumina => SignedChar(qualChar) - 64
    case LegacyPhred => SignedChar(qualChar)
    case LegacySanger => SignedChar(qualChar) - 33
  }

  /** `-t` parsing: exactly the three names are accepted. */
  function ParseQualType(name: string): (r: Option<LegacyType>)
    ensures r.Some? ==> r.value.Name() == name
  {
    if name == "illumina" then Some(LegacyIllumina)
    else if name == "phred" then Some(LegacyPhred)
    else if name == "sanger" then Some(LegacySanger)
    else None
  }

  /** Names and types correspond one to one; every other name is refused. */
  lemma {:induction false} ParseQualTypeExact(name: string, t: LegacyType)
    ensures ParseQualType(name) == Some(t) <==> name == t.Name()
    ensures ParseQualType(t.Name()).Some?
  {
    match t
    case LegacyIllumina =>
    case LegacyPhred =>
      assert "phred" != "illumina";
    case LegacySanger =>
      assert "sanger" != "illumina";
      assert "sanger" != "phred";
  }

  /** The options of the trimming tools that carry a value the core uses. */
  datatype CliOption =
    | QualTypeOption(name: string)         // -t
    | QualThresholdOption(value: int)      // -q
    | LengthThresholdOption(value: int)    // -l

  datatype CliError =
    | InvalidQualType(name: string)
    | NegativeQualThreshold
    | NegativeLengthThreshold
    | MissingQualType

  /** Settings while the options are read; the type starts unset. */
  datatype Settings = Settings(qualType: Option<LegacyType>, qualThreshold: int, lengthThreshold: int)

  /** Both thresholds default to 20. */
  const DefaultSettings := Settings(None, 20, 20)

  /** The settings a trimming run is made with. */
  datatype TrimConfig = TrimConfig(qualType: LegacyType, qualThreshold: nat, lengthThreshold: nat)

  predicate ValidOption(o: CliOption) {
    match o
    case QualTypeOption(name) => ParseQualType(name).Some?
    case QualThresholdOption(v) => v >= 0
    case LengthThresholdOption(v) => v >= 0
  }

  function OptionError(o: CliOption): CliError {
    match o
    case QualTypeOption(name) => InvalidQualType(name)
    case QualThresholdOption(_) => NegativeQualThreshold
    case LengthThresholdOption(_) => NegativeLengthThreshold
  }

  /** One option: it sets its own setting and nothing else, overriding an
      earlier value; a bad value ends the run. */
  function ApplyOption(s: Settings, o: CliOption): (r: Result<Settings, CliError>)
    ensures r.Ok? <==> ValidOption(o)
    ensures r.Err? ==> r.error == OptionError(o)
    ensures r.Ok? && o.QualTypeOption? ==> r.value == s.(qualType := ParseQualType(o.name))
    ensures r.Ok? && o.QualThresholdOption? ==> r.value == s.(qualThreshold := o.value)
    ensures r.Ok? && o.LengthThresholdOption? ==> r.value == s.(lengthThreshold := o.value)
  {
    match o
    case QualTypeOption(name) =>
      (match ParseQualType(name)
       case Some(t) => Ok(s.(qualType := Some(t)))
       case None => Err(InvalidQualType(name)))
    case QualThresholdOption(v) =>
      if v < 0 then Err(NegativeQualThreshold) else Ok(s.(qualThreshold := v))
    case LengthThresholdOption(v) =>
      if v < 0 then Err(NegativeLengthThreshold) else Ok(s.(lengthThreshold := v))
  }

  /** Options in command-line order; the first bad one decides the error. */
  function ApplyOptions(s: Settings, opts: seq<CliOption>): (r: Result<Settings, CliError>)
    decreases |opts|
    ensures r.Ok? <==> forall i :: 0 <= i < |opts| ==> ValidOption(opts[i])
    ensures r.Err? ==> exists i :: 0 <= i < |opts| && !ValidOption(opts[i]) && r.error == OptionError(opts[i])
                                   && forall j :: 0 <= j < i ==> ValidOption(opts[j])
    ensures r.Ok? && s.qualThreshold >= 0 && s.lengthThreshold >= 0 ==>
              r.value.qualThreshold >= 0 && r.value.lengthThreshold >= 0
    ensures r.Ok? ==> (r.value.qualType.Some? <==> s.qualType.Some? || exists i :: 0 <= i < |opts| && opts[i].QualTypeOption?)
  {
    if |opts| == 0 then Ok(s)
    else
      match ApplyOption(s, opts[0])
      case Err(e) => Err(e)
      case Ok(s') =>
        var r := ApplyOptions(s', opts[1..]);
        assert forall i :: 0 <= i < |opts| - 1 ==> opts[1..][i] == opts[i + 1];
        r
  }

  /** Every setting either keeps its starting value or is the value of some
      option on the command line. */
  lemma {:induction false} ApplyOptionsProvenance(s: Settings, opts: seq<CliOption>)
    requires ApplyOptions(s, opts).Ok?
    decreases |opts|
    ensures var r := ApplyOptions(s, opts).value;
            (r.qualType == s.qualType
             || exists i :: 0 <= i < |opts| && opts[i] == QualTypeOption(r.qualType.value.Name()))
            && (r.qualThreshold == s.qualThreshold
                || exists i :: 0 <= i < |opts| && opts[i] == QualThresholdOption(r.qualThreshold))
            && (r.lengthThreshold == s.lengthThreshold
                || exists i :: 0 <= i < |opts| && opts[i] == LengthThresholdOption(r.lengthThreshold))
  {
    if |opts| > 0 {
      var s' := ApplyOption(s, opts[0]).value;
      ApplyOptionsProvenance(s', opts[1..]);
      assert forall i :: 0 <= i < |opts| - 1 ==> opts[1..][i] == opts[i + 1];
      if opts[0].QualTypeOption? {
        ParseQualTypeExact(opts[0].name, s'.qualType.value);
      }
    }
  }

  /** The whole command line: every option valid and a quality type given,
      else the run stops (a missing type ends in the usage message). */
  function Configure(opts: seq<CliOption>): (r: Result<TrimConfig, CliError>)
    ensures r.Ok? <==> (forall i :: 0 <= i < |opts| ==> ValidOption(opts[i]))
                       && exists i :: 0 <= i < |opts| && opts[i].QualTypeOption?
    ensures r.Ok? ==> exists i :: 0 <= i < |opts| && opts[i] == QualTypeOption(r.value.qualType.Name())
    ensures r.Ok? ==> r.value.qualThreshold == 20
                      || exists i :: 0 <= i < |opts| && opts[i] == QualThresholdOption(r.value.qualThreshold)
    ensures r.Ok? ==> r.value.lengthThreshold == 20
                      || exists i :: 0 <= i < |opts| && opts[i] == LengthThresholdOption(r.value.lengthThreshold)
  {
    match ApplyOptions(DefaultSettings, opts)
    case Err(e) => Err(e)
    case Ok(s) =>
      ApplyOptionsProvenance(DefaultSettings, opts);
      if s.qualType.None? then Err(MissingQualType)
      else Ok(TrimConfig(s.qualType.value, s.qualThreshold, s.lengthThreshold))
  }

  /** The last threshold given wins. */
  lemma LastThresholdWins(opts: seq<CliOption>, v: int)
    requires ApplyOptions(DefaultSettings, opts).Ok? && v >= 0
    ensures ApplyOptions(DefaultSettings, opts + [QualThresholdOption(v)]).Ok?
    ensures ApplyOptions(DefaultSettings, opts + [QualThresholdOption(v)]).value.qualThreshold == v
    ensures Configure(opts + [QualThresholdOption(v)]).Ok? ==>
              Configure(opts + [QualThresholdOption(v)]).value.qualThreshold == v
  {
    AppendOption(DefaultSettings, opts, QualThresholdOption(v));
  }

  /** The last `-l` given is the run's length threshold. */
  lemma LastLengthThresholdWins(opts: seq<CliOption>, v: int)
    requires ApplyOptions(DefaultSettings, opts).Ok? && v >= 0
    ensures ApplyOptions(DefaultSettings, opts + [LengthThresholdOption(v)]).Ok?
    ensures ApplyOptions(DefaultSettings, opts + [LengthThresholdOption(v)]).value.lengthThreshold == v
    ensures Configure(opts + [LengthThresholdOption(v)]).Ok? ==>
              Configure(opts + [LengthThresholdOption(v)]).value.lengthThreshold == v
  {
    AppendOption(DefaultSettings, opts, LengthThresholdOption(v));
  }

  /** A run whose last option is `-t` uses that type, with the thresholds the
      earlier options left: the run starts whenever those options were valid. */
  lemma LastQualTypeWins(opts: seq<CliOption>, t: LegacyType)
    requires ApplyOptions(DefaultSettings, opts).Ok?
    ensures var s := ApplyOptions(DefaultSettings, opts).value;
            Configure(opts + [QualTypeOption(t.Name())]) == Ok(TrimConfig(t, s.qualThreshold, s.lengthThreshold))
  {
    ParseQualTypeExact(t.Name(), t);
    AppendOption(DefaultSettings, opts, QualTypeOption(t.Name()));
  }

  /** Without `-q` and `-l` both thresholds keep their default of 20. */
  lemma DefaultThresholds(opts: seq<CliOption>)
    requires forall i :: 0 <= i < |opts| ==> opts[i].QualTypeOption?
    requires Configure(opts).Ok?
    ensures Configure(opts).value.qualThreshold == 20 && Configure(opts).value.lengthThreshold == 20
  {
    TypeOptionsKeepThresholds(DefaultSettings, opts);
  }

  lemma {:induction false} TypeOptionsKeepThresholds(s: Settings, opts: seq<CliOption>)
    requires forall i :: 0 <= i < |opts| ==> opts[i].QualTypeOption?
    requires ApplyOptions(s, opts).Ok?
    ensures ApplyOptions(s, opts).value.qualThreshold == s.qualThreshold
    ensures ApplyOptions(s, opts).value.lengthThreshold == s.lengthThreshold
    decreases |opts|
  {
    if |opts| > 0 {
      var s' := ApplyOption(s, opts[0]).value;
      assert forall i :: 0 <= i < |opts| - 1 ==> opts[1..][i] == opts[i + 1];
      TypeOptionsKeepThresholds(s', opts[1..]);
    }
  }

  lemma {:induction false} AppendOption(s: Settings, opts: seq<CliOption>, o: CliOption)
    requires ApplyOptions(s, opts).Ok?
    ensures ApplyOptions(s, opts + [o]) == ApplyOption(ApplyOptions(s, opts).value, o)
    decreases |opts|
  {
    if |opts| == 0 {
      assert opts + [o] == [o];
      assert [o][1..] == [];
    } else {
      var s' := ApplyOption(s, opts[0]).value;
      assert (opts + [o])[1..] == opts[1..] + [o];
      AppendOption(s', opts[1..], o);
    }
  }
}

=== FILE: paired_end.dfy ===
/** The read loop of `trim_paired`: the two files are read in lock step, each
    mate is trimmed by the 3'-only rule on its own, and the pair is routed to
    the two paired outputs, to the singles output, or nowhere. */
module PairedEnd {
  import opened Results
  import opened CText
  import opened LegacyQuality
  import opened ThreePrime
  import opened Records
  import opened SingleEnd

  /** The text written to the first-mate file, the second-mate file and the
      singles file. */
  datatype Routed = Routed(out1: seq<byte>, out2: seq<byte>, single: seq<byte>)

  /** Which file ran out first, as reported on standard error. */
  datatype Mismatch = SecondFileShorter | FirstFileShorter

  datatype PairedRun = PairedRun(out: Routed, mismatch: Option<Mismatch>)

  const NoOutput := Routed([], [], [])

  /** Output of one batch of pairs followed by the output of the next. */
  function Join(a: Routed, b: Routed): Routed {
    Routed(a.out1 + b.out1, a.out2 + b.out2, a.single + b.single)
  }

  /** The routing of one pair: a kept mate goes to its own paired file when
      its partner is kept too and to the singles file when the partner is
      dropped; a dropped mate is written nowhere. */
  function RoutePair(r1: FastqRecord, r2: FastqRecord, cfg: TrimConfig): (o: Routed)
    ensures o.out1 == (if Decide(r2, cfg).keep then Emit(r1, cfg) else [])
    ensures o.out2 == (if Decide(r1, cfg).keep then Emit(r2, cfg) else [])
    ensures o.single == (if Decide(r2, cfg).keep then [] else Emit(r1, cfg))
                        + (if Decide(r1, cfg).keep then [] else Emit(r2, cfg))
    ensures (|o.out1| > 0) == (|o.out2| > 0)
  {
    var d1 := Decide(r1, cfg);
    var d2 := Decide(r2, cfg);
    if d1.keep && d2.keep then Routed(PrintPrefix(r1, d1.cut), PrintPrefix(r2, d2.cut), [])
    else if d1.keep && !d2.keep then Routed([], [], PrintPrefix(r1, d1.cut))
    else if !d1.keep && d2.keep then Routed([], [], PrintPrefix(r2, d2.cut))
    else NoOutput
  }

  /** What the loop writes for pairs read from two files of equal length. */
  function PairedOutput(rs1: seq<FastqRecord>, rs2: seq<FastqRecord>, cfg: TrimConfig): Routed
    requires |rs1| == |rs2|
  {
    if |rs1| == 0 then NoOutput
    else
      var n := |rs1| - 1;
      Join(PairedOutput(rs1[..n], rs2[..n], cfg), RoutePair(rs1[n], rs2[n], cfg))
  }

  /** The whole read loop: pairs are processed while both files have a
      record, and a file with records left over is reported. */
  function TrimPairedRun(rs1: seq<FastqRecord>, rs2: seq<FastqRecord>, cfg: TrimConfig): (run: PairedRun)
    ensures run.mismatch.None? <==> |rs1| == |rs2|
    ensures run.mismatch == Some(SecondFileShorter) <==> |rs1| > |rs2|
    ensures run.mismatch == Some(FirstFileShorter) <==> |rs1| < |rs2|
  {
    var m := if |rs1| <= |rs2| then |rs1| else |rs2|;
    var mismatch := if |rs1| > |rs2| then Some(SecondFileShorter)
                    else if |rs1| < |rs2| then Some(FirstFileShorter)
                    else None;
    PairedRun(PairedOutput(rs1[..m], rs2[..m], cfg), mismatch)
  }

  /** The loop of `trim_paired` over its two readers: a record from the
      first file, then one from the second (stopping with a report when
      there is none), both mates trimmed with fresh window state, the pair
      routed; once the first file is exhausted, one more read of the second
      tells whether it had records left. */
  method TrimPaired(rs1: seq<FastqRecord>, rs2: seq<FastqRecord>, cfg: TrimConfig) returns (run: PairedRun)
    ensures run == TrimPairedRun(rs1, rs2, cfg)
  {
    var out1: seq<byte> := [];
    var out2: seq<byte> := [];
    var single: seq<byte> := [];
    var mismatch: Option<Mismatch> := None;
    var i := 0;
    while i < |rs1|
      invariant i <= |rs1| && i <= |rs2|
      invariant mismatch.None?
      invariant Routed(out1, out2, single) == PairedOutput(rs1[..i], rs2[..i], cfg)
    {
      if i >= |rs2| {
        mismatch := Some(SecondFileShorter);
        break;
      }
      var o := RouteStep(rs1[i], rs2[i], cfg);
      out1 := out1 + o.out1;
      out2 := out2 + o.out2;
      single := single + o.single;
      PairedOutputSnoc(rs1, rs2, i, cfg);
      i := i + 1;
    }
    if mismatch.None? && i < |rs2| {
      mismatch := Some(FirstFileShorter);
    }
    run := PairedRun(Routed(out1, out2, single), mismatch);
  }

  /** The whole tool: the shared option checks, then the paired read loop. */
  method RunTrimPaired(opts: seq<CliOption>, rs1: seq<FastqRecord>, rs2: seq<FastqRecord>)
    returns (r: Result<PairedRun, CliError>)
    ensures r.Ok? <==> (forall i :: 0 <= i < |opts| ==> ValidOption(opts[i]))
                       && exists i :: 0 <= i < |opts| && opts[i].QualTypeOption?
    ensures r.Ok? ==> r.value == TrimPairedRun(rs1, rs2, Configure(opts).value)
    ensures r.Err? ==> r == Err(Configure(opts).error)
  {
    match Configure(opts)
    case Err(e) =>
      r := Err(e);
    case Ok(cfg) =>
      var run := TrimPaired(rs1, rs2, cfg);
      r := Ok(run);
  }

  /** The body of the loop for one pair: both mates trimmed with fresh
      window state, then the three-way routing on their keep flags. */
  method RouteStep(r1: FastqRecord, r2: FastqRecord, cfg: TrimConfig) returns (o: Routed)
    ensures o == RoutePair(r1, r2, cfg)
  {
    var p1cut, p1flag := TrimPrefix(r1.qual, r1.qualEnd, cfg.qualType, cfg.lengthThreshold, cfg.qualThreshold);
    var p2cut, p2flag := TrimPrefix(r2.qual, r2.qualEnd, cfg.qualType, cfg.lengthThreshold, cfg.qualThreshold);
    assert Decide(r1, cfg) == PrefixTrim(p1cut, p1flag);
    assert Decide(r2, cfg) == PrefixTrim(p2cut, p2flag);
    if p1flag && p2flag {
      o := Routed(PrintPrefix(r1, p1cut), PrintPrefix(r2, p2cut), []);
    } else if p1flag && !p2flag {
      o := Routed([], [], PrintPrefix(r1, p1cut));
    } else if !p1flag && p2flag {
      o := Routed([], [], PrintPrefix(r2, p2cut));
    } else {
      o := NoOutput;
    }
  }

  /** One more pair extends the output by that pair's routing. */
  lemma PairedOutputSnoc(rs1: seq<FastqRecord>, rs2: seq<FastqRecord>, i: nat, cfg: TrimConfig)
    requires i < |rs1| && i < |rs2|
    ensures PairedOutput(rs1[..i + 1], rs2[..i + 1], cfg)
            == Join(PairedOutput(rs1[..i], rs2[..i], cfg), RoutePair(rs1[i], rs2[i], cfg))
  {
    assert rs1[..i + 1][..i] == rs1[..i];
    assert rs2[..i + 1][..i] == rs2[..i];
  }

  /** The pairs whose two mates are both kept, in input order. */
  function KeptPairs(rs1: seq<FastqRecord>, rs2: seq<FastqRecord>, cfg: TrimConfig): (kp: seq<(FastqRecord, FastqRecord)>)
    requires |rs1| == |rs2|
    ensures |kp| <= |rs1|
  {
    if |rs1| == 0 then []
    else
      var n := |rs1| - 1;
      KeptPairs(rs1[..n], rs2[..n], cfg)
        + (if Decide(rs1[n], cfg).keep && Decide(rs2[n], cfg).keep then [(rs1[n], rs2[n])] else [])
  }

  /** The kept mates whose partner was dropped, in input order. */
  function Orphans(rs1: seq<FastqRecord>, rs2: seq<FastqRecord>, cfg: TrimConfig): (os: seq<FastqRecord>)
    requires |rs1| == |rs2|
  {
    if |rs1| == 0 then []
    else
      var n := |rs1| - 1;
      var d1 := Decide(rs1[n], cfg);
      var d2 := Decide(rs2[n], cfg);
      Orphans(rs1[..n], rs2[..n], cfg)
        + (if d1.keep && !d2.keep then [rs1[n]] else if !d1.keep && d2.keep then [rs2[n]] else [])
  }

  /** One mate of each pair: the first mates when `first`, else the second. */
  function Mates(ps: seq<(FastqRecord, FastqRecord)>, first: bool): (rs: seq<FastqRecord>)
    ensures |rs| == |ps|
  {
    if |ps| == 0 then []
    else
      var p := ps[|ps| - 1];
      Mates(ps[..|ps| - 1], first) + [if first then p.0 else p.1]
  }

  /** The output file that receives the first mates when `first`, else the
      second. */
  function MateFile(o: Routed, first: bool): seq<byte> {
    if first then o.out1 else o.out2
  }

  /** One more kept pair adds its mate's record to that mate's file. */
  lemma KeptPairSnoc(kp: seq<(FastqRecord, FastqRecord)>, r1: FastqRecord, r2: FastqRecord, first: bool, cfg: TrimConfig)
    ensures SingleOutput(Mates(kp + [(r1, r2)], first), cfg)
            == SingleOutput(Mates(kp, first), cfg) + Emit(if first then r1 else r2, cfg)
  {
    assert (kp + [(r1, r2)])[..|kp|] == kp;
    assert Mates(kp + [(r1, r2)], first) == Mates(kp, first) + [if first then r1 else r2];
    SingleOutputSnoc(Mates(kp, first), if first then r1 else r2, cfg);
  }

  /** One of the paired files, followed through the pairs: it holds that
      mate of every pair whose mates are both kept, in input order. */
  lemma {:induction false} MateFileHoldsKeptPairs(rs1: seq<FastqRecord>, rs2: seq<FastqRecord>, first: bool,
                                                  cfg: TrimConfig)
    requires |rs1| == |rs2|
    ensures MateFile(PairedOutput(rs1, rs2, cfg), first) == SingleOutput(Mates(KeptPairs(rs1, rs2, cfg), first), cfg)
  {
    if |rs1| > 0 {
      var n := |rs1| - 1;
      MateFileHoldsKeptPairs(rs1[..n], rs2[..n], first, cfg);
      MateFileStep(rs1, rs2, first, cfg);
    }
  }

  /** The induction step of `MateFileHoldsKeptPairs`: the last pair adds its
      mate to the file exactly when it joins the kept pairs. */
  lemma MateFileStep(rs1: seq<FastqRecord>, rs2: seq<FastqRecord>, first: bool, cfg: TrimConfig)
    requires |rs1| == |rs2| > 0
    requires var n := |rs1| - 1;
             MateFile(PairedOutput(rs1[..n], rs2[..n], cfg), first)
             == SingleOutput(Mates(KeptPairs(rs1[..n], rs2[..n], cfg), first), cfg)
    ensures MateFile(PairedOutput(rs1, rs2, cfg), first) == SingleOutput(Mates(KeptPairs(rs1, rs2, cfg), first), cfg)
  {
    var n := |rs1| - 1;
    var kp := KeptPairs(rs1, rs2, cfg);
    var kp' := KeptPairs(rs1[..n], rs2[..n], cfg);
    var o := RoutePair(rs1[n], rs2[n], cfg);
    var prev := MateFile(PairedOutput(rs1[..n], rs2[..n], cfg), first);
    assert MateFile(PairedOutput(rs1, rs2, cfg), first) == prev + MateFile(o, first);
    if Decide(rs1[n], cfg).keep && Decide(rs2[n], cfg).keep {
      KeptMateStep(kp', rs1[n], rs2[n], first, cfg, o, prev);
      assert kp == kp' + [(rs1[n], rs2[n])];
    } else {
      assert kp == kp' + [];
      AppendNothing(kp');
      assert MateFile(o, first) == [];
      AppendNothing(prev);
    }
  }

  lemma KeptMateStep(kp: seq<(FastqRecord, FastqRecord)>, r1: FastqRecord, r2: FastqRecord, first: bool,
                     cfg: TrimConfig, o: Routed, prev: seq<byte>)
    requires Decide(r1, cfg).keep && Decide(r2, cfg).keep && o == RoutePair(r1, r2, cfg)
    requires prev == SingleOutput(Mates(kp, first), cfg)
    ensures prev + MateFile(o, first) == SingleOutput(Mates(kp + [(r1, r2)], first), cfg)
  {
    KeptPairSnoc(kp, r1, r2, first, cfg);
  }

  /** The two paired files are written in lock step: the first holds the
      first mates and the second the second mates of the same pairs, those
      whose mates are both kept, in the same order. Each file reads as the
      single-end output of those mates. */
  lemma PairedOutputLockStep(rs1: seq<FastqRecord>, rs2: seq<FastqRecord>, cfg: TrimConfig)
    requires |rs1| == |rs2|
    ensures PairedOutput(rs1, rs2, cfg).out1 == SingleOutput(Mates(KeptPairs(rs1, rs2, cfg), true), cfg)
    ensures PairedOutput(rs1, rs2, cfg).out2 == SingleOutput(Mates(KeptPairs(rs1, rs2, cfg), false), cfg)
  {
    MateFileHoldsKeptPairs(rs1, rs2, true, cfg);
    MateFileHoldsKeptPairs(rs1, rs2, false, cfg);
  }

  /** The singles file holds, in input order, exactly the kept mates whose
      partner was dropped, each written as the single-end tool writes it. */
  lemma {:induction false} SinglesAreOrphans(rs1: seq<FastqRecord>, rs2: seq<FastqRecord>, cfg: TrimConfig)
    requires |rs1| == |rs2|
    ensures PairedOutput(rs1, rs2, cfg).single == SingleOutput(Orphans(rs1, rs2, cfg), cfg)
  {
    if |rs1| > 0 {
      var n := |rs1| - 1;
      SinglesAreOrphans(rs1[..n], rs2[..n], cfg);
      SinglesStep(rs1, rs2, cfg);
    }
  }

  /** The induction step of `SinglesAreOrphans`. */
  lemma SinglesStep(rs1: seq<FastqRecord>, rs2: seq<FastqRecord>, cfg: TrimConfig)
    requires |rs1| == |rs2| > 0
    requires var n := |rs1| - 1;
             PairedOutput(rs1[..n], rs2[..n], cfg).single == SingleOutput(Orphans(rs1[..n], rs2[..n], cfg), cfg)
    ensures PairedOutput(rs1, rs2, cfg).single == SingleOutput(Orphans(rs1, rs2, cfg), cfg)
  {
    var n := |rs1| - 1;
    if Decide(rs1[n], cfg).keep != Decide(rs2[n], cfg).keep {
      OrphanStep(rs1, rs2, cfg);
    } else {
      NoOrphanStep(rs1, rs2, cfg);
    }
  }

  /** A pair whose mates are both kept or both dropped adds nothing to the
      singles. */
  lemma NoOrphanStep(rs1: seq<FastqRecord>, rs2: seq<FastqRecord>, cfg: TrimConfig)
    requires |rs1| == |rs2| > 0
    requires var n := |rs1| - 1; Decide(rs1[n], cfg).keep == Decide(rs2[n], cfg).keep
    requires var n := |rs1| - 1;
             PairedOutput(rs1[..n], rs2[..n], cfg).single == SingleOutput(Orphans(rs1[..n], rs2[..n], cfg), cfg)
    ensures PairedOutput(rs1, rs2, cfg).single == SingleOutput(Orphans(rs1, rs2, cfg), cfg)
  {
    var n := |rs1| - 1;
    var prev := PairedOutput(rs1[..n], rs2[..n], cfg).single;
    var os' := Orphans(rs1[..n], rs2[..n], cfg);
    assert RoutePair(rs1[n], rs2[n], cfg).single == [];
    assert PairedOutput(rs1, rs2, cfg).single == prev + [];
    AppendNothing(prev);
    assert Orphans(rs1, rs2, cfg) == os' + [];
    AppendNothing(os');
  }

  /** A pair with one mate kept appends that mate to the singles. */
  lemma OrphanStep(rs1: seq<FastqRecord>, rs2: seq<FastqRecord>, cfg: TrimConfig)
    requires |rs1| == |rs2| > 0
    requires var n := |rs1| - 1; Decide(rs1[n], cfg).keep != Decide(rs2[n], cfg).keep
    requires var n := |rs1| - 1;
             PairedOutput(rs1[..n], rs2[..n], cfg).single == SingleOutput(Orphans(rs1[..n], rs2[..n], cfg), cfg)
    ensures PairedOutput(rs1, rs2, cfg).single == SingleOutput(Orphans(rs1, rs2, cfg), cfg)
  {
    var n := |rs1| - 1;
    var orphan := if Decide(rs1[n], cfg).keep then rs1[n] else rs2[n];
    var os' := Orphans(rs1[..n], rs2[..n], cfg);
    assert Orphans(rs1, rs2, cfg) == os' + [orphan];
    assert RoutePair(rs1[n], rs2[n], cfg).single == Emit(orphan, cfg);
    SingleOutputSnoc(os', orphan, cfg);
  }

  /** No kept mate is lost or written twice: the kept reads of both files
      number twice the kept pairs plus the orphans. */
  lemma {:induction false} KeptMatesWrittenOnce(rs1: seq<FastqRecord>, rs2: seq<FastqRecord>, cfg: TrimConfig)
    requires |rs1| == |rs2|
    ensures KeptCount(rs1, cfg) + KeptCount(rs2, cfg) == 2 * |KeptPairs(rs1, rs2, cfg)| + |Orphans(rs1, rs2, cfg)|
  {
    if |rs1| > 0 {
      var n := |rs1| - 1;
      KeptMatesWrittenOnce(rs1[..n], rs2[..n], cfg);
    }
  }

  /** Records past the end of the shorter file are never trimmed or
      written; only the report tells which file was longer. */
  lemma ExtraRecordsIgnored(rs1: seq<FastqRecord>, rs2: seq<FastqRecord>, extra: seq<FastqRecord>, cfg: TrimConfig)
    requires |rs1| == |rs2|
    ensures TrimPairedRun(rs1 + extra, rs2, cfg).out == TrimPairedRun(rs1, rs2, cfg).out
    ensures TrimPairedRun(rs1, rs2 + extra, cfg).out == TrimPairedRun(rs1, rs2, cfg).out
    ensures TrimPairedRun(rs1, rs2, cfg).out == PairedOutput(rs1, rs2, cfg)
    ensures |extra| > 0 ==> TrimPairedRun(rs1 + extra, rs2, cfg).mismatch == Some(SecondFileShorter)
    ensures |extra| > 0 ==> TrimPairedRun(rs1, rs2 + extra, cfg).mismatch == Some(FirstFileShorter)
  {
    assert forall i :: 0 <= i < |rs1| ==> (rs1 + extra)[i] == rs1[i];
    assert forall i :: 0 <= i < |extra| ==> (rs1 + extra)[|rs1| + i] == extra[i];
    assert forall i :: 0 <= i < |rs2| ==> (rs2 + extra)[i] == rs2[i];
    assert forall i :: 0 <= i < |extra| ==> (rs2 + extra)[|rs2| + i] == extra[i];
    assert (rs1 + extra)[..|rs1|] == rs1 && rs1[..|rs1|] == rs1;
    assert (rs2 + extra)[..|rs2|] == rs2 && rs2[..|rs2|] == rs2;
  }
}

=== FILE: quality.dfy ===
/** The quality encodings of `sickle.h` and the offset decoder of `sliding.c`. */
module Quality {
  import opened CText

  /** The four encodings, in the order of the C enum; that order indexes the
      rows of the constants table. */
  datatype QualityType = Phred | Sanger | Solexa | Illumina

  /** The enum value of a quality type. */
  function TypeIndex(t: QualityType): (i: nat)
    ensures i < 4
  {
    match t
    case Phred => 0
    case Sanger => 1
    case Solexa => 2
    case Illumina => 3
  }

  /** The quality type with a given enum value. */
  function TypeOfIndex(i: nat): (t: QualityType)
    requires i < 4
    ensures TypeIndex(t) == i
  {
    if i == 0 then Phred else if i == 1 then Sanger else if i == 2 then Solexa else Illumina
  }

  /** The enum values are exactly 0..3 and name four different encodings. */
  lemma TypeIndexBijective(t: QualityType, u: QualityType)
    ensures TypeOfIndex(TypeIndex(t)) == t
    ensures TypeIndex(t) == TypeIndex(u) ==> t == u
  {
  }

  /** Column numbers of the constants table. */
  const Q_OFFSET: nat := 0
  const Q_MIN: nat := 1
  const Q_MAX: nat := 2

  /** One row per encoding: offset, lowest legal byte, highest legal byte.
      The Solexa row is a linear approximation of a non-linear scale. */
  const QualityConstants: seq<seq<int>> := [
    [0, 4, 60],       // Phred
    [33, 33, 126],    // Sanger
    [64, 58, 112],    // Solexa
    [64, 64, 110]     // Illumina
  ]

  function Constant(t: QualityType, column: nat): int
    requires column < 3
  {
    QualityConstants[TypeIndex(t)][column]
  }

  function Offset(t: QualityType): int { Constant(t, Q_OFFSET) }
  function MinChar(t: QualityType): int { Constant(t, Q_MIN) }
  function MaxChar(t: QualityType): int { Constant(t, Q_MAX) }

  /** Shape and contents of the table: four rows of three, the listed
      offsets, legal ranges that are non-empty and inside 7-bit ASCII, and
      Sanger and Illumina starting their range at the offset. */
  lemma QualityTable()
    ensures |QualityConstants| == 4
    ensures forall i :: 0 <= i < 4 ==> |QualityConstants[i]| == 3
    ensures Offset(Phred) == 0 && Offset(Sanger) == 33 && Offset(Solexa) == 64 && Offset(Illumina) == 64
    ensures forall t: QualityType :: 0 < MinChar(t) <= MaxChar(t) < 128
    ensures MinChar(Sanger) == Offset(Sanger) && MinChar(Illumina) == Offset(Illumina)
    ensures MinChar(Solexa) < Offset(Solexa)
  {
  }

  /** `get_quality_num`: the byte's value less the encoding's offset. No range
      check is made, so every byte decodes to something. */
  function GetQualityNum(qualChar: byte, t: QualityType): (score: int)
    ensures -128 - 64 <= score < 128
    ensures MinChar(t) <= qualChar as int <= MaxChar(t) ==> MinScore(t) <= score <= MaxScore(t)
  {
    SignedChar(qualChar) - Offset(t)
  }

  /** Lowest and highest score a legal byte of the encoding decodes to. */
  function MinScore(t: QualityType): int { MinChar(t) - Offset(t) }
  function MaxScore(t: QualityType): int { MaxChar(t) - Offset(t) }

  /** The byte that carries a given score: the inverse of the decoder on the
      encoding's legal range. */
  function QualityChar(score: int, t: QualityType): (c: byte)
    requires MinScore(t) <= score <= MaxScore(t)
    ensures MinChar(t) <= c as int <= MaxChar(t)
  {
    (score + Offset(t)) as byte
  }

  /** Decoding a legal byte and encoding the score gives the byte back. */
  lemma DecodeEncode(c: byte, t: QualityType)
    requires MinChar(t) <= c as int <= MaxChar(t)
    ensures QualityChar(GetQualityNum(c, t), t) == c
  {
  }

  /** Encoding a legal score and decoding the byte gives the score back. */
  lemma EncodeDecode(score: int, t: QualityType)
    requires MinScore(t) <= score <= MaxScore(t)
    ensures GetQualityNum(QualityChar(score, t), t) == score
  {
  }

  /** The decoded ranges: Sanger 0..93 ('!' to '~'), Illumina 0..46,
      Phred 4..60, and Solexa down to -6 because its lowest byte sits below
      its offset. */
  lemma ScoreRanges()
    ensures MinScore(Sanger) == 0 && MaxScore(Sanger) == 93
    ensures GetQualityNum(33, Sanger) == 0 && GetQualityNum(126, Sanger) == 93
    ensures MinScore(Illumina) == 0 && MaxScore(Illumina) == 46
    ensures MinScore(Phred) == 4 && MaxScore(Phred) == 60
    ensures MinScore(Solexa) == -6 && MaxScore(Solexa) == 48
  {
  }
}

=== FILE: records.dfy ===
/** The FASTQ text the trimmers write for a read: `print_record` (the read
    sliced by its cut sites), `print_record_N` (a one-base placeholder), and
    the four lines the stand-alone tools print for a kept prefix. The gzip
    variants format the same text into a compressed stream, so one function
    stands for each pair. */
module Records {
  import opened CText
  import opened Quality
  import Sliding

  /** A read as the FASTQ reader hands it over: the name (the header up to
      the first blank), the comment (the rest of the header line, possibly
      empty), the bases and the quality string. `qualEnd` is the byte stored
      just past the quality string, which the window sweeps read. */
  datatype FastqRecord = FastqRecord(name: seq<byte>, comment: seq<byte>, bases: seq<byte>,
                                     qual: seq<byte>, qualEnd: byte)
  {
    /** Bases and qualities pair up one to one, as the reader guarantees. */
    predicate WellFormed() {
      |bases| == |qual|
    }

    /** No field holds a NUL or a newline, so `%s` prints each in full and
        the text splits back into its lines. */
    predicate Plain() {
      NUL !in name && NUL !in comment && NUL !in bases && NUL !in qual
      && NEWLINE !in name && NEWLINE !in comment && NEWLINE !in bases && NEWLINE !in qual
    }
  }

  /** The header line without its newline: `@name`, then ` comment` only when
      the comment is non-empty. */
  function Header(r: FastqRecord): (h: seq<byte>)
    ensures |h| >= 1 && h[0] == AT
    ensures |r.comment| == 0 ==> h == [AT] + CString(r.name)
  {
    [AT] + CString(r.name) + (if |r.comment| > 0 then [SPACE] + CString(r.comment) else [])
  }

  /** Cut sites `print_record` can slice by: the discard sentinel never
      qualifies. */
  predicate Sliceable(r: FastqRecord, cs: Sliding.CutSites) {
    0 <= cs.fivePrimeCut <= cs.threePrimeCut <= |r.bases| && cs.threePrimeCut <= |r.qual|
  }

  /** `print_record` / `print_record_gzip`: header, the bases and qualities
      from the 5' cut up to the 3' cut, and a bare `+` separator. */
  function PrintRecord(r: FastqRecord, cs: Sliding.CutSites): (text: seq<byte>)
    requires Sliceable(r, cs)
    ensures |text| >= 5 && text[0] == AT && text[|text| - 1] == NEWLINE
  {
    var bases := CString(r.bases[cs.fivePrimeCut..cs.threePrimeCut]);
    var qual := CString(r.qual[cs.fivePrimeCut..cs.threePrimeCut]);
    Header(r) + [NEWLINE] + bases + [NEWLINE] + [PLUS] + [NEWLINE] + qual + [NEWLINE]
  }

  /** `print_record_N` / `print_record_N_gzip`: header, a single `N`, and the
      lowest legal quality character of the encoding. */
  function PrintRecordN(r: FastqRecord, t: QualityType): (text: seq<byte>)
    ensures |text| >= 8 && text[0] == AT && text[|text| - 1] == NEWLINE
  {
    QualityTable();
    Header(r) + [NEWLINE] + [BASE_N] + [NEWLINE] + [PLUS] + [NEWLINE] + [MinChar(t) as byte] + [NEWLINE]
  }

  /** The four `fprintf`s of `trim_single` and `trim_paired` for a kept read:
      `@name`, the first `cut` bases, `+name`, the first `cut` qualities. The
      comment is not printed. */
  function PrintPrefix(r: FastqRecord, cut: nat): (text: seq<byte>)
    ensures |text| >= 6 && text[0] == AT && text[|text| - 1] == NEWLINE
  {
    ([AT] + CString(r.name)) + [NEWLINE] + CStringUpTo(r.bases, cut) + [NEWLINE]
      + ([PLUS] + CString(r.name)) + [NEWLINE] + CStringUpTo(r.qual, cut) + [NEWLINE]
  }

  /** Slices of a plain record print in full. */
  lemma PlainSlice(s: seq<byte>, lo: nat, hi: nat)
    requires lo <= hi <= |s| && NUL !in s && NEWLINE !in s
    ensures CString(s[lo..hi]) == s[lo..hi]
    ensures NEWLINE !in s[lo..hi]
  {
    assert forall i :: 0 <= i < hi - lo ==> s[lo..hi][i] in s;
    CStringOfPlain(s[lo..hi]);
  }

  /** The header line of a plain record holds no newline. */
  lemma PlainHeader(r: FastqRecord)
    requires r.Plain()
    ensures Header(r) == [AT] + r.name + (if |r.comment| > 0 then [SPACE] + r.comment else [])
    ensures NEWLINE !in Header(r)
  {
    CStringOfPlain(r.name);
    CStringOfPlain(r.comment);
  }

  /** A printed record reads back as four lines: the header, the kept bases,
      `+`, and the kept qualities, the last two of the same length. */
  lemma PrintRecordLines(r: FastqRecord, cs: Sliding.CutSites)
    requires Sliceable(r, cs) && r.Plain()
    ensures var kept := r.bases[cs.fivePrimeCut..cs.threePrimeCut];
            var keptQual := r.qual[cs.fivePrimeCut..cs.threePrimeCut];
            Lines(PrintRecord(r, cs)) == [Header(r), kept, [PLUS], keptQual]
            && |kept| == |keptQual| == cs.threePrimeCut - cs.fivePrimeCut
  {
    var kept := r.bases[cs.fivePrimeCut..cs.threePrimeCut];
    var keptQual := r.qual[cs.fivePrimeCut..cs.threePrimeCut];
    PlainSlice(r.bases, cs.fivePrimeCut, cs.threePrimeCut);
    PlainSlice(r.qual, cs.fivePrimeCut, cs.threePrimeCut);
    PlainHeader(r);
    LinesFour(Header(r), kept, [PLUS], keptQual);
  }

  /** The placeholder record reads back as four lines whose quality line is
      the one character decoding to the lowest legal score. */
  lemma PrintRecordNLines(r: FastqRecord, t: QualityType)
    requires r.Plain()
    ensures Lines(PrintRecordN(r, t)) == [Header(r), [BASE_N], [PLUS], [MinChar(t) as byte]]
    ensures GetQualityNum(MinChar(t) as byte, t) == MinScore(t)
  {
    QualityTable();
    PlainHeader(r);
    LinesFour(Header(r), [BASE_N], [PLUS], [MinChar(t) as byte]);
  }

  /** The four lines of a kept prefix: `@name`, the first `cut` bases,
      `+name`, the first `cut` qualities. */
  function PrefixLines(r: FastqRecord, cut: nat): (ls: seq<seq<byte>>)
    requires cut <= |r.bases| && cut <= |r.qual|
    ensures |ls| == 4
  {
    [[AT] + r.name, r.bases[..cut], [PLUS] + r.name, r.qual[..cut]]
  }

  /** The stand-alone tools' record of a plain read is its four prefix lines,
      none holding a newline, each framed by one; it reads back as them. */
  lemma PrintPrefixLines(r: FastqRecord, cut: nat)
    requires cut <= |r.bases| && cut <= |r.qual| && r.Plain()
    ensures PrintPrefix(r, cut) == Unlines(PrefixLines(r, cut))
    ensures forall i :: 0 <= i < 4 ==> NEWLINE !in PrefixLines(r, cut)[i]
    ensures Lines(PrintPrefix(r, cut)) == PrefixLines(r, cut)
  {
    PlainSlice(r.bases, 0, cut);
    PlainSlice(r.qual, 0, cut);
    CStringOfPlain(r.name);
    assert r.bases[0..cut] == r.bases[..cut];
    assert r.qual[0..cut] == r.qual[..cut];
    assert NEWLINE !in [AT] + r.name;
    assert NEWLINE !in [PLUS] + r.name;
    UnlinesFour([AT] + r.name, r.bases[..cut], [PLUS] + r.name, r.qual[..cut]);
    LinesFour([AT] + r.name, r.bases[..cut], [PLUS] + r.name, r.qual[..cut]);
  }

  /** Under a non-negative length threshold (the only kind the tools
      accept), the kept cut sites of `sliding_window` on a well-formed record
      are sliceable, so the sentinel is the only value `print_record` must not
      be given. A negative threshold can keep a pair with five > three. */
  lemma KeptCutsSliceable(r: FastqRecord, t: QualityType, lengthThreshold: int, qualThreshold: int)
    requires r.WellFormed() && lengthThreshold >= 0
    requires Sliding.SlidingCuts(Sliding.Scores(r.qual, r.qualEnd, t), lengthThreshold, qualThreshold)
               != Sliding.Discard
    ensures Sliceable(r, Sliding.SlidingCuts(Sliding.Scores(r.qual, r.qualEnd, t), lengthThreshold, qualThreshold))
  {
  }
}

=== FILE: results.dfy ===
/** Option and Result values used where the C code signals "nothing found"
    with a default or an error with an exit status. */
module Results {

  /** A value that may be absent. */
  datatype Option<+T> = None | Some(value: T) {

    /** The carried value, or `default` when there is none. */
    function GetOr(default: T): T {
      match this
      case Some(v) => v
      case None => default
    }
  }

  /** A value, or the error that prevented computing it. */
  datatype Result<+T, +E> = Ok(value: T) | Err(error: E)
}

=== FILE: single_end.dfy ===
/** The read loop of `trim_single`: every read is trimmed to a prefix by the
    3'-only rule and, when kept, written as four lines; a dropped read leaves
    nothing in the output. */
module SingleEnd {
  import opened Results
  import opened CText
  import opened LegacyQuality
  import opened ThreePrime
  import opened Records
  import opened Windows

  predicate AllWellFormed(rs: seq<FastqRecord>) {
    forall i :: 0 <= i < |rs| ==> rs[i].WellFormed()
  }

  predicate AllPlain(rs: seq<FastqRecord>) {
    forall i :: 0 <= i < |rs| ==> rs[i].Plain()
  }

  /** The prefix trim of one read under the run's settings. A cut inside the
      read sits on a failing base, and the read is kept exactly when that base
      lies at or past the length threshold. A read cut at its full length is
      dropped only when the byte past it fails and the read is shorter than
      the length threshold. An empty read is always kept: the sweep never
      runs. */
  function Decide(r: FastqRecord, cfg: TrimConfig): (d: PrefixTrim)
    ensures d.cut <= |r.qual|
    ensures !d.keep ==> d.cut < cfg.lengthThreshold
    ensures d.cut < |r.qual| ==> LegacyQualityNum(r.qual[d.cut], cfg.qualType) < cfg.qualThreshold
    ensures d.cut < |r.qual| ==> (d.keep <==> d.cut >= cfg.lengthThreshold)
    ensures d.cut == |r.qual| && !d.keep ==>
              LegacyQualityNum(r.qualEnd, cfg.qualType) < cfg.qualThreshold && |r.qual| < cfg.lengthThreshold
    ensures |r.qual| == 0 ==> d == PrefixTrim(0, true)
  {
    var e := LegacyScores(r.qual, r.qualEnd, cfg.qualType);
    var d := PrefixCut(e, cfg.lengthThreshold, cfg.qualThreshold);
    assert d.cut < |r.qual| ==> e[d.cut] == QualityNum(LegacyDecoding(cfg.qualType), ByteAt(r.qual, r.qualEnd, d.cut));
    assert e[|r.qual|] == QualityNum(LegacyDecoding(cfg.qualType), ByteAt(r.qual, r.qualEnd, |r.qual|));
    d
  }

  /** What the loop writes for one read: its prefix record when it is kept,
      nothing when it is dropped. */
  function Emit(r: FastqRecord, cfg: TrimConfig): (text: seq<byte>)
    ensures |text| > 0 <==> Decide(r, cfg).keep
  {
    var d := Decide(r, cfg);
    if d.keep then PrintPrefix(r, d.cut) else []
  }

  /** The lines one read contributes to the output. */
  function EmitLines(r: FastqRecord, cfg: TrimConfig): seq<seq<byte>>
    requires r.WellFormed()
  {
    var d := Decide(r, cfg);
    if d.keep then PrefixLines(r, d.cut) else []
  }

  /** The texts `f` gives for the reads `rs`, one after the other. */
  function ConcatMap(rs: seq<FastqRecord>, f: FastqRecord -> seq<byte>): seq<byte>
  {
    if |rs| == 0 then [] else ConcatMap(rs[..|rs| - 1], f) + f(rs[|rs| - 1])
  }

  function EmitWith(cfg: TrimConfig): FastqRecord -> seq<byte> {
    r => Emit(r, cfg)
  }

  /** Everything `trim_single` writes for the reads `rs`, in input order. */
  function SingleOutput(rs: seq<FastqRecord>, cfg: TrimConfig): seq<byte>
  {
    ConcatMap(rs, EmitWith(cfg))
  }

  /** The lines of the output, read by read. */
  function OutputLines(rs: seq<FastqRecord>, cfg: TrimConfig): seq<seq<byte>>
    requires AllWellFormed(rs)
  {
    if |rs| == 0 then [] else OutputLines(rs[..|rs| - 1], cfg) + EmitLines(rs[|rs| - 1], cfg)
  }

  /** How many of the reads are kept. */
  function KeptCount(rs: seq<FastqRecord>, cfg: TrimConfig): nat
  {
    if |rs| == 0 then 0
    else KeptCount(rs[..|rs| - 1], cfg) + (if Decide(rs[|rs| - 1], cfg).keep then 1 else 0)
  }

  /** The loop over the reader: per read the inline trim, then the four
      `fprintf`s when the read is kept. */
  method TrimSingle(rs: seq<FastqRecord>, cfg: TrimConfig) returns (out: seq<byte>)
    ensures out == SingleOutput(rs, cfg)
  {
    out := [];
    var i := 0;
    while i < |rs|
      invariant i <= |rs|
      invariant out == SingleOutput(rs[..i], cfg)
    {
      var text := TrimRead(rs[i], cfg);
      out := out + text;
      SingleOutputStep(rs, i, cfg);
      i := i + 1;
    }
    assert rs[..|rs|] == rs;
  }

  /** The body of the loop for one read: the inline trim, then the four
      `fprintf`s when the keep flag is still set. */
  method TrimRead(r: FastqRecord, cfg: TrimConfig) returns (text: seq<byte>)
    ensures text == Emit(r, cfg)
  {
    var p1cut, p1flag := TrimPrefix(r.qual, r.qualEnd, cfg.qualType, cfg.lengthThreshold, cfg.qualThreshold);
    text := [];
    if p1flag {
      text := PrintPrefix(r, p1cut);
    }
  }

  /** The whole tool: the command line first (a bad threshold or type ends
      the run before any read is looked at), then the read loop. */
  method RunTrimSingle(opts: seq<CliOption>, rs: seq<FastqRecord>) returns (r: Result<seq<byte>, CliError>)
    ensures r.Ok? <==> (forall i :: 0 <= i < |opts| ==> ValidOption(opts[i]))
                       && exists i :: 0 <= i < |opts| && opts[i].QualTypeOption?
    ensures r.Ok? ==> r.value == SingleOutput(rs, Configure(opts).value)
    ensures r.Err? ==> r == Err(Configure(opts).error)
  {
    match Configure(opts)
    case Err(e) =>
      r := Err(e);
    case Ok(cfg) =>
      var out := TrimSingle(rs, cfg);
      r := Ok(out);
  }

  /** A kept read is written as `@name`, its first `cut` bases, `+name` and
      its first `cut` qualities; none of these lines holds a newline. */
  lemma EmitAsLines(r: FastqRecord, cfg: TrimConfig)
    requires r.WellFormed() && r.Plain()
    ensures Emit(r, cfg) == Unlines(EmitLines(r, cfg))
    ensures |EmitLines(r, cfg)| == if Decide(r, cfg).keep then 4 else 0
    ensures forall i :: 0 <= i < |EmitLines(r, cfg)| ==> NEWLINE !in EmitLines(r, cfg)[i]
  {
    var d := Decide(r, cfg);
    if d.keep {
      PrintPrefixLines(r, d.cut);
    }
  }

  /** The output is the lines of the kept reads, four per read, each framed
      by a newline. */
  lemma {:induction false} SingleOutputUnlines(rs: seq<FastqRecord>, cfg: TrimConfig)
    requires AllWellFormed(rs) && AllPlain(rs)
    ensures SingleOutput(rs, cfg) == Unlines(OutputLines(rs, cfg))
    ensures |OutputLines(rs, cfg)| == 4 * KeptCount(rs, cfg)
    ensures forall i :: 0 <= i < |OutputLines(rs, cfg)| ==> NEWLINE !in OutputLines(rs, cfg)[i]
  {
    if |rs| > 0 {
      var init := rs[..|rs| - 1];
      var last := rs[|rs| - 1];
      SingleOutputUnlines(init, cfg);
      EmitAsLines(last, cfg);
      UnlinesAppend(OutputLines(init, cfg), EmitLines(last, cfg));
    }
  }

  /** Reading the output back line by line gives, for each kept read in
      input order, `@name`, the kept bases, `+name` and the kept qualities:
      four lines per kept read and none for a dropped one. */
  lemma SingleOutputLines(rs: seq<FastqRecord>, cfg: TrimConfig)
    requires AllWellFormed(rs) && AllPlain(rs)
    ensures Lines(SingleOutput(rs, cfg)) == OutputLines(rs, cfg)
    ensures |Lines(SingleOutput(rs, cfg))| == 4 * KeptCount(rs, cfg)
  {
    SingleOutputUnlines(rs, cfg);
    LinesOfUnlines(OutputLines(rs, cfg));
  }

  /** Concatenating per-read texts distributes over concatenated batches. */
  lemma {:induction false} ConcatMapAppend(a: seq<FastqRecord>, b: seq<FastqRecord>, f: FastqRecord -> seq<byte>)
    ensures ConcatMap(a + b, f) == ConcatMap(a, f) + ConcatMap(b, f)
    decreases |b|
  {
    if |b| == 0 {
      assert a + b == a;
    } else {
      var init := b[..|b| - 1];
      assert (a + b)[..|a + b| - 1] == a + init;
      assert (a + b)[|a + b| - 1] == b[|b| - 1];
      ConcatMapAppend(a, init, f);
    }
  }

  /** Reads are handled one at a time: the output for two batches of reads
      is the output for the first followed by the output for the second. */
  lemma SingleOutputAppend(a: seq<FastqRecord>, b: seq<FastqRecord>, cfg: TrimConfig)
    ensures SingleOutput(a + b, cfg) == SingleOutput(a, cfg) + SingleOutput(b, cfg)
  {
    ConcatMapAppend(a, b, EmitWith(cfg));
  }

  /** One more read of the input extends the output by that read's text. */
  lemma SingleOutputStep(rs: seq<FastqRecord>, i: nat, cfg: TrimConfig)
    requires i < |rs|
    ensures SingleOutput(rs[..i + 1], cfg) == SingleOutput(rs[..i], cfg) + Emit(rs[i], cfg)
  {
    assert rs[..i + 1][..i] == rs[..i];
  }

  /** Appending one read to a batch appends its output. */
  lemma SingleOutputSnoc(rs: seq<FastqRecord>, r: FastqRecord, cfg: TrimConfig)
    ensures SingleOutput(rs + [r], cfg) == SingleOutput(rs, cfg) + Emit(r, cfg)
  {
    assert (rs + [r])[..|rs|] == rs;
  }
}

=== FILE: sliding.dfy ===
/** `sliding_window`: one left-to-right sweep of a read that finds the 5' cut
    (the first passing base of the first window whose average reaches the
    threshold) and the 3' cut (the first failing base of the window the sweep
    stops at), and replaces both with -1 when the kept span is too short. */
module Sliding {
  import opened Results
  import opened CText
  import opened Quality
  import opened Windows

  /** The two coordinates the trimmer returns. */
  datatype CutSites = CutSites(fivePrimeCut: int, threePrimeCut: int)

  /** The "discard this read" sentinel. */
  const Discard := CutSites(-1, -1)

  /** Decoded scores of a read's quality string and of the byte past it. */
  function Scores(qual: seq<byte>, qualEnd: byte, t: QualityType): seq<int> {
    ScoresWith(qual, qualEnd, TableDecoding(t))
  }

  /** The 5' cut once the sweep has looked at windows `[0, limit)`: 0 until a
      window's average reaches `q`, then the first base of that window that
      reaches `q`. Later windows never move it. */
  function FivePrimeCut(e: seq<int>, ws: nat, q: int, limit: nat): (five: nat)
    requires limit + ws <= |e| + 1 && |e| >= 1
    ensures five < |e|
  {
    match HighWindow(e, ws, q, 0, limit)
    case None => 0
    case Some(w) => FirstAtLeast(e, w, w + ws, q).GetOr(0)
  }

  /** The cut sites the sweep returns from the window `w` it stops at, given
      the 5' cut found so far: the first failing base of the window becomes
      the 3' cut, and a span shorter than the length threshold is discarded;
      with no failing base the 3' cut stays at the read length. */
  function CutsFromStop(e: seq<int>, ws: nat, w: nat, five: int, lengthThreshold: int, q: int): CutSites
    requires w + ws <= |e| && |e| >= 1
  {
    match FirstBelow(e, w, w + ws, q)
    case None => CutSites(five, |e| - 1)
    case Some(j) => if j - five < lengthThreshold then Discard else CutSites(five, j)
  }

  /** The cut sites `sliding_window` returns for a read whose scores, with the
      byte past the read appended, are `e`. */
  function SlidingCuts(e: seq<int>, lengthThreshold: int, q: int): (cs: CutSites)
    requires |e| >= 1
    ensures cs.fivePrimeCut < 0 || cs.threePrimeCut < 0 ==> cs == Discard
    ensures cs != Discard ==> 0 <= cs.fivePrimeCut <= |e| - 1 && 0 <= cs.threePrimeCut <= |e| - 1
    ensures cs != Discard && lengthThreshold >= 0 ==> cs.fivePrimeCut <= cs.threePrimeCut
    ensures cs != Discard && cs.fivePrimeCut > 0 ==> e[cs.fivePrimeCut] >= q
    ensures cs != Discard && cs.threePrimeCut < |e| - 1 ==> e[cs.threePrimeCut] < q
    ensures cs != Discard && cs.threePrimeCut < |e| - 1 ==> cs.threePrimeCut - cs.fivePrimeCut >= lengthThreshold
  {
    var n := |e| - 1;
    var ws := WindowSize(n);
    match StopWindow(e, n, ws, q, 0)
    case None =>
      assert n == 0 || !IsStop(e, n, ws, q, n - 1);
      CutSites(FivePrimeCut(e, ws, q, n), n)
    case Some(w) =>
      CutsFromStop(e, ws, w, FivePrimeCut(e, ws, q, w + 1), lengthThreshold, q)
  }

  /** The discard rule: the read is discarded exactly when the sweep stops at
      a window holding a failing base and that base lies fewer than
      `lengthThreshold` bases past the 5' cut found by then; without such a
      base no length check is made. */
  lemma SlidingDiscardRule(e: seq<int>, lengthThreshold: int, q: int)
    requires |e| >= 1
    ensures var n := |e| - 1;
            var ws := WindowSize(n);
            var stop := StopWindow(e, n, ws, q, 0);
            SlidingCuts(e, lengthThreshold, q) == Discard <==>
              stop.Some? && FirstBelow(e, stop.value, stop.value + ws, q).Some?
              && FirstBelow(e, stop.value, stop.value + ws, q).value
                 - FivePrimeCut(e, ws, q, stop.value + 1) < lengthThreshold
  {
    var n := |e| - 1;
    var ws := WindowSize(n);
    match StopWindow(e, n, ws, q, 0)
    case None =>
      assert n == 0 || !IsStop(e, n, ws, q, n - 1);
    case Some(w) =>
  }

  /** The 5' cut never leaves the first window: when the first window's
      average is below the threshold the sweep stops there before any later
      window is looked at, and otherwise the first window is the one the 5'
      search latches on. */
  lemma FivePrimeCutInFirstWindow(e: seq<int>, lengthThreshold: int, q: int)
    requires |e| >= 2
    ensures SlidingCuts(e, lengthThreshold, q).fivePrimeCut < WindowSize(|e| - 1)
    ensures SlidingCuts(e, lengthThreshold, q).fivePrimeCut > 0 ==> IsHigh(e, WindowSize(|e| - 1), q, 0)
  {
    var n := |e| - 1;
    var ws := WindowSize(n);
    var stop := StopWindow(e, n, ws, q, 0);
    var limit := if stop.None? then n else stop.value + 1;
    if IsHigh(e, ws, q, 0) {
      HighWindowSpec(e, ws, q, 0, limit);
      assert HighWindow(e, ws, q, 0, limit) == Some(0);
    } else {
      StopWindowAt(e, n, ws, q, 0);
      assert HighWindow(e, ws, q, 0, 1) == None;
    }
  }

  /** One more window for the 5' search: the flag and the cut move only if
      no earlier window reached the threshold and this one does. */
  lemma FivePrimeCutStep(e: seq<int>, ws: nat, q: int, w: nat, found: bool, five: nat, found': bool, five': nat)
    requires w + 1 + ws <= |e| + 1 && |e| >= 1
    requires found == HighWindow(e, ws, q, 0, w).Some? && five == FivePrimeCut(e, ws, q, w)
    requires found' <==> found || Sum(e, w, w + ws) >= q * ws
    requires five' == if !found && Sum(e, w, w + ws) >= q * ws then FirstAtLeast(e, w, w + ws, q).GetOr(five) else five
    ensures found' == HighWindow(e, ws, q, 0, w + 1).Some?
    ensures five' == FivePrimeCut(e, ws, q, w + 1)
  {
  }

  /** The sweep stops at the first window whose running total is below the
      threshold or which runs past the read. */
  lemma SweepStops(e: seq<int>, n: nat, ws: nat, q: int, w: nat, total: int)
    requires |e| == n + 1 && ws <= n && w < n && w + ws <= n + 1
    requires total == Sum(e, w, w + ws)
    requires forall k :: 0 <= k < w ==> !IsStop(e, n, ws, q, k)
    requires total < q * ws || w + ws > n
    ensures StopWindow(e, n, ws, q, 0) == Some(w)
  {
    StopWindowAt(e, n, ws, q, w);
  }

  /** A window whose running total reaches the threshold lets the sweep pass. */
  lemma SweepPasses(e: seq<int>, n: nat, ws: nat, q: int, w: nat, total: int)
    requires |e| == n + 1 && w + ws <= n + 1
    requires total == Sum(e, w, w + ws)
    requires forall k :: 0 <= k < w ==> !IsStop(e, n, ws, q, k)
    requires !(total < q * ws || w + ws > n)
    ensures forall k :: 0 <= k < w + 1 ==> !IsStop(e, n, ws, q, k)
  {
  }

  /** The cut sites once the sweep is known to stop at window `w`, with the
      5' cut `five` found by then. */
  lemma SlidingCutsAtStop(e: seq<int>, lengthThreshold: int, q: int, ws: nat, w: nat, five: int)
    requires |e| >= 1 && ws == WindowSize(|e| - 1) && w + ws <= |e|
    requires StopWindow(e, |e| - 1, ws, q, 0) == Some(w)
    requires five == FivePrimeCut(e, ws, q, w + 1)
    ensures SlidingCuts(e, lengthThreshold, q) == CutsFromStop(e, ws, w, five, lengthThreshold, q)
  {
  }

  /** The cut sites when the sweep runs off the end without stopping, with
      the 5' cut `five` found by then. */
  lemma SlidingCutsRunOut(e: seq<int>, lengthThreshold: int, q: int, ws: nat, five: int)
    requires |e| >= 1 && ws == WindowSize(|e| - 1) && ws <= 1
    requires StopWindow(e, |e| - 1, ws, q, 0).None?
    requires five == FivePrimeCut(e, ws, q, |e| - 1)
    ensures SlidingCuts(e, lengthThreshold, q) == CutSites(five, |e| - 1)
  {
  }

  /** The 3' block of the sweep, run at the window that stops it. */
  method ThreePrimeAt(qual: seq<byte>, qualEnd: byte, decoding: Decoding, ghost e: seq<int>,
                      windowStart: nat, windowSize: nat, fivePrimeCut: int, lengthThreshold: int, qualThreshold: int)
    returns (cs: CutSites)
    requires Decodes(qual, qualEnd, decoding, e) && windowStart + windowSize <= |qual| + 1
    ensures cs == CutsFromStop(e, windowSize, windowStart, fivePrimeCut, lengthThreshold, qualThreshold)
  {
    var threePrimeCut: int := |qual|;
    var five := fivePrimeCut;
    var dip := ScanBelow(qual, qualEnd, decoding, e, windowStart, windowStart + windowSize, qualThreshold);
    if dip.Some? {
      threePrimeCut := dip.value;
      if threePrimeCut - five < lengthThreshold {
        threePrimeCut := -1;
        five := -1;
      }
    }
    cs := CutSites(five, threePrimeCut);
  }

  /** The 5' block of the sweep: the first time a window's average reaches
      the threshold, the cut moves to the first base of the window that
      reaches it, and the flag latches. */
  method FivePrimeAt(qual: seq<byte>, qualEnd: byte, decoding: Decoding, ghost e: seq<int>,
                     windowStart: nat, windowSize: nat, windowTotal: int, qualThreshold: int,
                     foundFivePrime: bool, fivePrimeCut: nat)
    returns (found: bool, five: nat)
    requires Decodes(qual, qualEnd, decoding, e) && windowStart + windowSize <= |qual| + 1
    ensures found <==> foundFivePrime || windowTotal >= qualThreshold * windowSize
    ensures five == if !foundFivePrime && windowTotal >= qualThreshold * windowSize
                    then FirstAtLeast(e, windowStart, windowStart + windowSize, qualThreshold).GetOr(fivePrimeCut)
                    else fivePrimeCut
  {
    found, five := foundFivePrime, fivePrimeCut;
    if !found && windowTotal >= qualThreshold * windowSize {
      var first := ScanAtLeast(qual, qualEnd, decoding, e, windowStart, windowStart + windowSize, qualThreshold);
      if first.Some? {
        five := first.value;
      }
      found := true;
    }
  }

  /** The sweep loop of `sliding_window` (the C loop counter `i` always
      equals `window_start`, so one variable stands for both): a running
      window total updated by one subtraction and one addition per step, the
      5' search latched by a flag, and the loop left at the first window that
      stops the 3' search. Returns that window, if any, and the 5' cut found
      by then. */
  method SweepWindows(qual: seq<byte>, qualEnd: byte, decoding: Decoding, ghost e: seq<int>,
                      windowSize: nat, qualThreshold: int)
    returns (stop: Option<nat>, fivePrimeCut: nat)
    requires Decodes(qual, qualEnd, decoding, e) && windowSize == WindowSize(|qual|)
    ensures stop == StopWindow(e, |qual|, windowSize, qualThreshold, 0)
    ensures stop.None? ==> windowSize <= 1
    ensures stop.Some? ==> fivePrimeCut == FivePrimeCut(e, windowSize, qualThreshold, stop.value + 1)
    ensures stop.None? ==> fivePrimeCut == FivePrimeCut(e, windowSize, qualThreshold, |qual|)
  {
    var n := |qual|;
    var foundFivePrime := false;
    fivePrimeCut := 0;
    var windowStart: nat := 0;
    var windowTotal := InitialWindowTotal(qual, qualEnd, decoding, e, windowSize);
    var minTotal := qualThreshold * windowSize;
    while windowStart < n
      invariant windowStart + windowSize <= n + 1
      invariant windowTotal == Sum(e, windowStart, windowStart + windowSize)
      invariant forall k :: 0 <= k < windowStart ==> !IsStop(e, n, windowSize, qualThreshold, k)
      invariant foundFivePrime == HighWindow(e, windowSize, qualThreshold, 0, windowStart).Some?
      invariant fivePrimeCut == FivePrimeCut(e, windowSize, qualThreshold, windowStart)
    {
      // 5' cut: the first window whose average reaches the threshold.
      var found, five := FivePrimeAt(qual, qualEnd, decoding, e, windowStart, windowSize, windowTotal,
                                     qualThreshold, foundFivePrime, fivePrimeCut);
      FivePrimeCutStep(e, windowSize, qualThreshold, windowStart, foundFivePrime, fivePrimeCut, found, five);
      foundFivePrime, fivePrimeCut := found, five;
      // 3' cut: a window below the threshold, or the last window, ends the sweep.
      if windowTotal < minTotal || windowStart + windowSize > n {
        SweepStops(e, n, windowSize, qualThreshold, windowStart, windowTotal);
        stop := Some(windowStart);
        return;
      }
      SweepPasses(e, n, windowSize, qualThreshold, windowStart, windowTotal);
      windowTotal := SlideWindow(qual, qualEnd, decoding, e, windowStart, windowSize, windowTotal);
      windowStart := windowStart + 1;
    }
    StopWindowNone(e, n, windowSize, qualThreshold);
    assert n == 0 || !IsStop(e, n, windowSize, qualThreshold, n - 1);
    stop := None;
  }

  /** `sliding_window`: the window size (a tenth of the read, or the whole
      read when that is 0), the sweep, then the 3' block at the window the
      sweep stopped at. Reads at index `|qual|` see the byte past the quality
      string. */
  method SlidingWindow(qual: seq<byte>, qualEnd: byte, qualType: QualityType,
                       lengthThreshold: int, qualThreshold: int)
    returns (cs: CutSites)
    ensures cs == SlidingCuts(Scores(qual, qualEnd, qualType), lengthThreshold, qualThreshold)
  {
    var decoding := TableDecoding(qualType);
    ghost var e := ScoresWith(qual, qualEnd, decoding);
    assert e == Scores(qual, qualEnd, qualType);
    var n := |qual|;
    var windowSize := n / 10;
    if windowSize == 0 {
      windowSize := n;
    }
    var stop, fivePrimeCut := SweepWindows(qual, qualEnd, decoding, e, windowSize, qualThreshold);
    match stop
    case None =>
      SlidingCutsRunOut(e, lengthThreshold, qualThreshold, windowSize, fivePrimeCut);
      cs := CutSites(fivePrimeCut, n);
    case Some(windowStart) =>
      cs := ThreePrimeAt(qual, qualEnd, decoding, e, windowStart, windowSize, fivePrimeCut,
                         lengthThreshold, qualThreshold);
      SlidingCutsAtStop(e, lengthThreshold, qualThreshold, windowSize, windowStart, fivePrimeCut);
  }

  /** A read whose bases all reach the threshold is kept whole, except that a
      read shorter than the length threshold is dropped when its window spans
      two or more bases and the byte past the read scores below the
      threshold: that byte is then the only "dip" the 3' search finds, and
      only a dip triggers the length check. With one-base windows (reads of 1
      or of 10 to 19 bases) no length check happens at all. */
  lemma CleanReadCuts(e: seq<int>, lengthThreshold: int, q: int)
    requires |e| >= 2
    requires forall k :: 0 <= k < |e| - 1 ==> e[k] >= q
    ensures SlidingCuts(e, lengthThreshold, q) ==
              if WindowSize(|e| - 1) >= 2 && e[|e| - 1] < q && |e| - 1 < lengthThreshold
              then Discard else CutSites(0, |e| - 1)
  {
    if WindowSize(|e| - 1) == 1 {
      CleanReadUnitWindow(e, lengthThreshold, q);
    } else {
      CleanReadWideWindow(e, lengthThreshold, q);
    }
  }

  /** With one-base windows the sweep over a clean read runs out. */
  lemma CleanReadUnitWindow(e: seq<int>, lengthThreshold: int, q: int)
    requires |e| >= 2 && WindowSize(|e| - 1) == 1
    requires forall k :: 0 <= k < |e| - 1 ==> e[k] >= q
    ensures SlidingCuts(e, lengthThreshold, q) == CutSites(0, |e| - 1)
  {
    var n := |e| - 1;
    CleanReadWindowsPass(e, q);
    assert FirstAtLeast(e, 0, 1, q) == Some(0);
    StopWindowNone(e, n, 1, q);
    HighWindowSpec(e, 1, q, 0, n);
  }

  /** With wider windows the sweep over a clean read stops at the window that
      runs past the read, whose only failing index can be the byte past it. */
  lemma CleanReadWideWindow(e: seq<int>, lengthThreshold: int, q: int)
    requires |e| >= 2 && WindowSize(|e| - 1) >= 2
    requires forall k :: 0 <= k < |e| - 1 ==> e[k] >= q
    ensures SlidingCuts(e, lengthThreshold, q) ==
              if e[|e| - 1] < q && |e| - 1 < lengthThreshold then Discard else CutSites(0, |e| - 1)
  {
    var n := |e| - 1;
    var ws := WindowSize(n);
    CleanReadWindowsPass(e, q);
    assert FirstAtLeast(e, 0, ws, q) == Some(0);
    var s := n - ws + 1;
    StopWindowAt(e, n, ws, q, s);
    HighWindowSpec(e, ws, q, 0, s + 1);
    FirstBelowSpec(e, s, n + 1, q);
    if e[n] < q {
      assert FirstBelow(e, s, n + 1, q) == Some(n);
    } else {
      assert FirstBelow(e, s, n + 1, q) == None;
    }
  }

  /** In a read whose bases all reach the threshold, every window inside the
      read reaches it on average and lets the sweep pass. */
  lemma CleanReadWindowsPass(e: seq<int>, q: int)
    requires |e| >= 2
    requires forall k :: 0 <= k < |e| - 1 ==> e[k] >= q
    ensures var n := |e| - 1;
            var ws := WindowSize(n);
            forall k :: 0 <= k && k + ws <= n ==> IsHigh(e, ws, q, k) && !IsStop(e, n, ws, q, k)
  {
    var n := |e| - 1;
    var ws := WindowSize(n);
    forall k | 0 <= k && k + ws <= n
      ensures IsHigh(e, ws, q, k) && !IsStop(e, n, ws, q, k)
    {
      SumAtLeast(e, k, k + ws, q);
    }
  }

  /** The 3' search is not gated on the 5' one: when the first window's
      average is below the threshold, the sweep stops at once with the 5' cut
      still 0, and the read survives only if its first failing base lies at or
      beyond the length threshold (the kept part is then a prefix). */
  lemma LowFirstWindow(e: seq<int>, lengthThreshold: int, q: int)
    requires |e| >= 2
    requires !IsHigh(e, WindowSize(|e| - 1), q, 0)
    ensures FirstBelow(e, 0, WindowSize(|e| - 1), q).Some?
    ensures var j := FirstBelow(e, 0, WindowSize(|e| - 1), q).value;
            SlidingCuts(e, lengthThreshold, q) ==
              if j < lengthThreshold then Discard else CutSites(0, j)
  {
    var n := |e| - 1;
    var ws := WindowSize(n);
    LowWindowHasLowBase(e, 0, ws, q);
    StopWindowAt(e, n, ws, q, 0);
    assert HighWindow(e, ws, q, 0, 1) == None;
  }

  /** A read whose bases all fail the threshold is dropped whenever the
      length threshold is positive, and kept as the empty span otherwise. */
  lemma AllLowRead(e: seq<int>, lengthThreshold: int, q: int)
    requires |e| >= 2
    requires forall k :: 0 <= k < |e| - 1 ==> e[k] < q
    ensures SlidingCuts(e, lengthThreshold, q) ==
              if lengthThreshold > 0 then Discard else CutSites(0, 0)
  {
    var ws := WindowSize(|e| - 1);
    SumBelow(e, 0, ws, q);
    LowFirstWindow(e, lengthThreshold, q);
  }

  /** A Sanger read of eight '!' (score 0) then two 'I' (score 40), threshold
      20, length threshold 1, NUL past the read: the one-base first window
      fails, so the sweep stops at base 0 and the read is dropped. */
  lemma SangerTailOnlyReadDiscarded()
    ensures SlidingCuts(Scores([33, 33, 33, 33, 33, 33, 33, 33, 73, 73], 0, Sanger), 1, 20) == Discard
  {
    var e := Scores([33, 33, 33, 33, 33, 33, 33, 33, 73, 73], 0, Sanger);
    assert WindowSize(|e| - 1) == 1;
    assert e[0] == 0;
    assert Sum(e, 0, 1) == 0;
    LowFirstWindow(e, 1, 20);
    assert FirstBelow(e, 0, 1, 20) == Some(0);
  }

  /** A kept 5' cut past 0 is the first base reaching the threshold inside the
      first window whose average reaches it. */
  lemma FivePrimeCutIsFirstPassingBase(e: seq<int>, lengthThreshold: int, q: int)
    requires |e| >= 1
    requires SlidingCuts(e, lengthThreshold, q) != Discard
    requires SlidingCuts(e, lengthThreshold, q).fivePrimeCut > 0
    ensures var ws := WindowSize(|e| - 1);
            var five := SlidingCuts(e, lengthThreshold, q).fivePrimeCut;
            exists w: nat :: w <= five < w + ws && w + ws <= |e| && IsHigh(e, ws, q, w)
                        && (forall k :: 0 <= k < w ==> !IsHigh(e, ws, q, k))
                        && (forall k :: w <= k < five ==> e[k] < q)
                        && e[five] >= q
  {
    var n := |e| - 1;
    var ws := WindowSize(n);
    var stop := StopWindow(e, n, ws, q, 0);
    var limit := if stop.None? then n else stop.value + 1;
    assert SlidingCuts(e, lengthThreshold, q).fivePrimeCut == FivePrimeCut(e, ws, q, limit);
    var w := FivePrimeCutWitness(e, ws, q, limit);
  }

  /** A non-zero 5' cut lies in the first high window `w`, at its first
      passing base. */
  lemma FivePrimeCutWitness(e: seq<int>, ws: nat, q: int, limit: nat) returns (w: nat)
    requires limit + ws <= |e| + 1 && |e| >= 1
    requires FivePrimeCut(e, ws, q, limit) > 0
    ensures var five := FivePrimeCut(e, ws, q, limit);
            w <= five < w + ws && w + ws <= |e| && IsHigh(e, ws, q, w)
            && (forall k :: 0 <= k < w ==> !IsHigh(e, ws, q, k))
            && (forall k :: w <= k < five ==> e[k] < q)
            && e[five] >= q
  {
    HighWindowSpec(e, ws, q, 0, limit);
    w := HighWindow(e, ws, q, 0, limit).value;
    FirstAtLeastSpec(e, w, w + ws, q);
  }

  /** The converse: when the first window's average reaches the threshold,
      a kept read's 5' cut is the first base of that window reaching it. */
  lemma FivePrimeCutFound(e: seq<int>, lengthThreshold: int, q: int, j: nat)
    requires |e| >= 2
    requires j < WindowSize(|e| - 1) && IsHigh(e, WindowSize(|e| - 1), q, 0)
    requires e[j] >= q && forall k :: 0 <= k < j ==> e[k] < q
    requires SlidingCuts(e, lengthThreshold, q) != Discard
    ensures SlidingCuts(e, lengthThreshold, q).fivePrimeCut == j
  {
    var n := |e| - 1;
    var ws := WindowSize(n);
    var stop := StopWindow(e, n, ws, q, 0);
    var limit := if stop.None? then n else stop.value + 1;
    assert SlidingCuts(e, lengthThreshold, q).fivePrimeCut == FivePrimeCut(e, ws, q, limit);
    FivePrimeCutOfHighFirstWindow(e, ws, q, limit, j);
  }

  /** With a high first window, the 5' cut is its first passing base however
      many windows the sweep has looked at. */
  lemma FivePrimeCutOfHighFirstWindow(e: seq<int>, ws: nat, q: int, limit: nat, j: nat)
    requires 1 <= limit && limit + ws <= |e| + 1 && |e| >= 1
    requires j < ws && IsHigh(e, ws, q, 0)
    requires e[j] >= q && forall k :: 0 <= k < j ==> e[k] < q
    ensures FivePrimeCut(e, ws, q, limit) == j
  {
    HighWindowSpec(e, ws, q, 0, limit);
    assert HighWindow(e, ws, q, 0, limit) == Some(0);
    FirstAtLeastSpec(e, 0, ws, q);
    assert FirstAtLeast(e, 0, ws, q) == Some(j);
  }

  /** A kept 3' cut inside the read is the first base failing the threshold
      inside the first window that stops the sweep. */
  lemma ThreePrimeCutIsFirstDip(e: seq<int>, lengthThreshold: int, q: int)
    requires |e| >= 1
    requires SlidingCuts(e, lengthThreshold, q) != Discard
    requires SlidingCuts(e, lengthThreshold, q).threePrimeCut < |e| - 1
    ensures var n := |e| - 1;
            var ws := WindowSize(n);
            var three := SlidingCuts(e, lengthThreshold, q).threePrimeCut;
            exists w: nat :: w <= three < w + ws && w + ws <= n + 1 && IsStop(e, n, ws, q, w)
                        && (forall k :: 0 <= k < w ==> !IsStop(e, n, ws, q, k))
                        && (forall k :: w <= k < three ==> e[k] >= q)
  {
    var n := |e| - 1;
    var ws := WindowSize(n);
    StopWindowSpec(e, n, ws, q, 0);
    var w := StopWindow(e, n, ws, q, 0).value;
    FirstBelowSpec(e, w, w + ws, q);
  }

  /** The converse: when `w` is the first window that stops the sweep and
      `j` the first failing base in it, a kept read's 3' cut is `j`. */
  lemma ThreePrimeCutFound(e: seq<int>, lengthThreshold: int, q: int, w: nat, j: nat)
    requires |e| >= 1
    requires var n := |e| - 1; var ws := WindowSize(n);
             w < n && w + ws <= n + 1 && IsStop(e, n, ws, q, w)
             && (forall k :: 0 <= k < w ==> !IsStop(e, n, ws, q, k))
             && w <= j < w + ws && e[j] < q && (forall k :: w <= k < j ==> e[k] >= q)
    requires SlidingCuts(e, lengthThreshold, q) != Discard
    ensures SlidingCuts(e, lengthThreshold, q).threePrimeCut == j
  {
    var n := |e| - 1;
    var ws := WindowSize(n);
    StopWindowAt(e, n, ws, q, w);
    FirstBelowSpec(e, w, w + ws, q);
  }

  /** How the sweep ends: windows of two or more bases always stop it before
      it runs out, and a window that stops it by running past the read is
      `[n - ws + 1, n]`, whose last index is the byte past the read. One-base
      windows never run past the read. */
  lemma SweepEnd(e: seq<int>, q: int)
    requires |e| >= 2
    ensures var n := |e| - 1;
            var ws := WindowSize(n);
            var stop := StopWindow(e, n, ws, q, 0);
            (ws >= 2 ==> stop.Some?)
            && (stop.Some? && stop.value + ws > n ==> ws >= 2 && stop.value + ws - 1 == n)
  {
    var n := |e| - 1;
    var ws := WindowSize(n);
    if StopWindow(e, n, ws, q, 0).None? {
      assert !IsStop(e, n, ws, q, n - 1);
    }
  }
}

=== FILE: three_prime.dfy ===
/** The 3'-only trimmer written inline in the read loops of `trim_single`
    and `trim_paired`: the same window sweep as `sliding_window`, without a
    5' search, that keeps a prefix of the read and drops the read when the
    failing base it cuts at lies before the length threshold. */
module ThreePrime {
  import opened Results
  import opened CText
  import opened LegacyQuality
  import opened Windows
  import Sliding

  /** What the loop leaves behind for one read: the prefix length `p1cut`
      and the keep flag `p1flag`. */
  datatype PrefixTrim = PrefixTrim(cut: nat, keep: bool)

  /** Scores of a read under the tools' own decoder, with the byte past the
      read appended. */
  function LegacyScores(qual: seq<byte>, qualEnd: byte, t: LegacyType): seq<int> {
    ScoresWith(qual, qualEnd, LegacyDecoding(t))
  }

  /** The prefix trim of a read whose scores, with the byte past the read
      appended, are `e`: the sweep stops at the same window as the 3' search
      of `sliding_window`; the first failing base of that window becomes the
      cut, and only such a base can drop the read. An empty read is kept
      with cut 0, since the sweep never runs. */
  function PrefixCut(e: seq<int>, lengthThreshold: int, q: int): (r: PrefixTrim)
    requires |e| >= 1
    ensures r.cut <= |e| - 1
    ensures !r.keep ==> r.cut < lengthThreshold
    ensures r.cut < |e| - 1 ==> e[r.cut] < q
    ensures r.cut < |e| - 1 ==> (r.keep <==> r.cut >= lengthThreshold)
    ensures r.cut == |e| - 1 && !r.keep ==> e[|e| - 1] < q && |e| - 1 < lengthThreshold
    ensures |e| == 1 ==> r == PrefixTrim(0, true)
  {
    var n := |e| - 1;
    var ws := WindowSize(n);
    match StopWindow(e, n, ws, q, 0)
    case None => PrefixTrim(n, true)
    case Some(w) =>
      match FirstBelow(e, w, w + ws, q)
      case None => PrefixTrim(n, true)
      case Some(j) => PrefixTrim(j, !(j < lengthThreshold))
  }

  /** The sweep of `trim_single` (and of each mate in `trim_paired`): the
      running window total, slid by one subtraction and one addition, until
      the first window whose average is below the threshold or which runs
      past the read. */
  method StopSweep(qual: seq<byte>, qualEnd: byte, decoding: Decoding, ghost e: seq<int>,
                   windowSize: nat, qualThreshold: int)
    returns (stop: Option<nat>)
    requires Decodes(qual, qualEnd, decoding, e) && windowSize == WindowSize(|qual|)
    ensures stop == StopWindow(e, |qual|, windowSize, qualThreshold, 0)
  {
    var n := |qual|;
    var windowStart: nat := 0;
    var windowTotal := InitialWindowTotal(qual, qualEnd, decoding, e, windowSize);
    while windowStart < n
      invariant windowStart + windowSize <= n + 1
      invariant windowTotal == Sum(e, windowStart, windowStart + windowSize)
      invariant forall k :: 0 <= k < windowStart ==> !IsStop(e, n, windowSize, qualThreshold, k)
    {
      if windowTotal < qualThreshold * windowSize || windowStart + windowSize > n {
        StopWindowAt(e, n, windowSize, qualThreshold, windowStart);
        return Some(windowStart);
      }
      assert !IsStop(e, n, windowSize, qualThreshold, windowStart);
      windowTotal := SlideWindow(qual, qualEnd, decoding, e, windowStart, windowSize, windowTotal);
      windowStart := windowStart + 1;
    }
    StopWindowNone(e, n, windowSize, qualThreshold);
    return None;
  }

  /** The per-read body of the read loop: window size, the sweep, and at the
      window it stops at, the scan for the first failing base, which becomes
      `p1cut` and clears `p1flag` when it lies before the length threshold. */
  method TrimPrefix(qual: seq<byte>, qualEnd: byte, qualType: LegacyType, lengthThreshold: int, qualThreshold: int)
    returns (p1cut: nat, p1flag: bool)
    ensures PrefixTrim(p1cut, p1flag) == PrefixCut(LegacyScores(qual, qualEnd, qualType), lengthThreshold, qualThreshold)
  {
    var decoding := LegacyDecoding(qualType);
    p1cut, p1flag := TrimPrefixWith(qual, qualEnd, decoding, ScoresWith(qual, qualEnd, decoding),
                                    lengthThreshold, qualThreshold);
  }

  /** `TrimPrefix` for scores `e` decoded by `decoding`. */
  method TrimPrefixWith(qual: seq<byte>, qualEnd: byte, decoding: Decoding, ghost e: seq<int>,
                        lengthThreshold: int, qualThreshold: int)
    returns (p1cut: nat, p1flag: bool)
    requires Decodes(qual, qualEnd, decoding, e)
    ensures PrefixTrim(p1cut, p1flag) == PrefixCut(e, lengthThreshold, qualThreshold)
  {
    var n := |qual|;
    var windowSize := n / 10;
    if windowSize == 0 {
      windowSize := n;
    }
    p1flag := true;
    p1cut := n;
    var stop := StopSweep(qual, qualEnd, decoding, e, windowSize, qualThreshold);
    if stop.Some? {
      var windowStart := stop.value;
      var dip := ScanBelow(qual, qualEnd, decoding, e, windowStart, windowStart + windowSize, qualThreshold);
      if dip.Some? {
        p1cut := dip.value;
        if p1cut < lengthThreshold {
          p1flag := false;
        }
      }
    }
  }

  /** The tools' decoder gives the same scores as the table-driven one for
      the corresponding encoding. */
  lemma LegacyScoresAgree(qual: seq<byte>, qualEnd: byte, t: LegacyType)
    ensures LegacyScores(qual, qualEnd, t) == Sliding.Scores(qual, qualEnd, t.Modern())
  {
    var a := LegacyScores(qual, qualEnd, t);
    var b := Sliding.Scores(qual, qualEnd, t.Modern());
    forall k | 0 <= k < |a|
      ensures a[k] == b[k]
    {
      assert a[k] == LegacyQualityNum(ByteAt(qual, qualEnd, k), t);
    }
  }

  /** A cut short of the end of the read is the first failing base inside
      the first window that stops the sweep, and every base before it in that
      window passes. */
  lemma PrefixCutIsFirstDip(e: seq<int>, lengthThreshold: int, q: int)
    requires |e| >= 1
    requires PrefixCut(e, lengthThreshold, q).cut < |e| - 1
    ensures var n := |e| - 1;
            var ws := WindowSize(n);
            var cut := PrefixCut(e, lengthThreshold, q).cut;
            exists w: nat :: w <= cut < w + ws && w + ws <= n + 1 && IsStop(e, n, ws, q, w)
                        && (forall k :: 0 <= k < w ==> !IsStop(e, n, ws, q, k))
                        && (forall k :: w <= k < cut ==> e[k] >= q)
  {
    var n := |e| - 1;
    var ws := WindowSize(n);
    StopWindowSpec(e, n, ws, q, 0);
    var w := StopWindow(e, n, ws, q, 0).value;
    FirstBelowSpec(e, w, w + ws, q);
  }

  /** The converse: when `w` is the first window that stops the sweep and
      `j` the first failing base in it, the cut is `j`, and the read is kept
      iff `j` reaches the length threshold. */
  lemma PrefixCutFound(e: seq<int>, lengthThreshold: int, q: int, w: nat, j: nat)
    requires |e| >= 1
    requires var n := |e| - 1; var ws := WindowSize(n);
             w < n && w + ws <= n + 1 && IsStop(e, n, ws, q, w)
             && (forall k :: 0 <= k < w ==> !IsStop(e, n, ws, q, k))
             && w <= j < w + ws && e[j] < q && (forall k :: w <= k < j ==> e[k] >= q)
    ensures PrefixCut(e, lengthThreshold, q) == PrefixTrim(j, j >= lengthThreshold)
  {
    var n := |e| - 1;
    var ws := WindowSize(n);
    StopWindowAt(e, n, ws, q, w);
    FirstBelowSpec(e, w, w + ws, q);
  }

  /** Whatever `sliding_window` keeps, the 3'-only trimmer keeps too, and
      both cut the 3' end at the same base. */
  lemma SlidingKeepsOnlyWhatPrefixKeeps(e: seq<int>, lengthThreshold: int, q: int)
    requires |e| >= 1
    requires Sliding.SlidingCuts(e, lengthThreshold, q) != Sliding.Discard
    ensures PrefixCut(e, lengthThreshold, q).keep
    ensures Sliding.SlidingCuts(e, lengthThreshold, q).threePrimeCut == PrefixCut(e, lengthThreshold, q).cut
  {
    var n := |e| - 1;
    var ws := WindowSize(n);
    match StopWindow(e, n, ws, q, 0)
    case None =>
      assert n == 0 || !IsStop(e, n, ws, q, n - 1);
    case Some(w) =>
      Sliding.SlidingCutsAtStop(e, lengthThreshold, q, ws, w, Sliding.FivePrimeCut(e, ws, q, w + 1));
  }

  /** Conversely, a read the 3'-only trimmer drops is discarded by
      `sliding_window` too: its 5' cut can only shorten the span. */
  lemma PrefixDropImpliesDiscard(e: seq<int>, lengthThreshold: int, q: int)
    requires |e| >= 1
    requires !PrefixCut(e, lengthThreshold, q).keep
    ensures Sliding.SlidingCuts(e, lengthThreshold, q) == Sliding.Discard
  {
    if Sliding.SlidingCuts(e, lengthThreshold, q) != Sliding.Discard {
      SlidingKeepsOnlyWhatPrefixKeeps(e, lengthThreshold, q);
    }
  }

  /** A read whose bases all reach the threshold is kept whole when its
      windows span one base; with wider windows it is cut only at the byte
      past the read, which drops it when it is shorter than the length
      threshold and that byte fails. */
  lemma CleanReadPrefix(e: seq<int>, lengthThreshold: int, q: int)
    requires |e| >= 2
    requires forall k :: 0 <= k < |e| - 1 ==> e[k] >= q
    ensures PrefixCut(e, lengthThreshold, q) ==
              PrefixTrim(|e| - 1, !(WindowSize(|e| - 1) >= 2 && e[|e| - 1] < q && |e| - 1 < lengthThreshold))
  {
    var n := |e| - 1;
    var ws := WindowSize(n);
    Sliding.CleanReadWindowsPass(e, q);
    if ws == 1 {
      StopWindowNone(e, n, ws, q);
    } else {
      var s := n - ws + 1;
      StopWindowAt(e, n, ws, q, s);
      FirstBelowSpec(e, s, n + 1, q);
      if e[n] < q {
        assert FirstBelow(e, s, n + 1, q) == Some(n);
      }
    }
  }
}

=== FILE: windows.dfy ===
/** The window arithmetic shared by both trimmers: per-base scores with the
    byte past the read appended, window sums, the dynamic window size, and
    the first-index searches that pick a window and a base inside it.

    Averages are compared without division: for a window of `ws > 0` bases,
    `(double)total / ws >= q` holds exactly when `total >= q * ws`, and the
    window size `(int)(0.1 * N)` is `N / 10`. */
module Windows {
  import opened Results
  import opened CText
  import Quality
  import LegacyQuality

  /** The `get_quality_num` a tool uses: the table-driven one of `sliding.c`
      or the hard-coded one of the stand-alone tools. */
  datatype Decoding =
    | TableDecoding(qualType: Quality.QualityType)
    | LegacyDecoding(legacyType: LegacyQuality.LegacyType)

  function QualityNum(decoding: Decoding, c: byte): int {
    match decoding
    case TableDecoding(t) => Quality.GetQualityNum(c, t)
    case LegacyDecoding(t) => LegacyQuality.LegacyQualityNum(c, t)
  }

  /** The byte the trimmers read at index `k`: the quality string, and at
      index `|qual|` the byte just past it in the reader's buffer. */
  function ByteAt(qual: seq<byte>, qualEnd: byte, k: nat): byte
    requires k <= |qual|
  {
    if k < |qual| then qual[k] else qualEnd
  }

  /** Scores of every index the sweep may read, `0..|qual|` inclusive. */
  function ScoresWith(qual: seq<byte>, qualEnd: byte, decoding: Decoding): (e: seq<int>)
    ensures Decodes(qual, qualEnd, decoding, e)
  {
    seq(|qual| + 1, k requires 0 <= k <= |qual| => QualityNum(decoding, ByteAt(qual, qualEnd, k)))
  }

  /** `e` holds the decoded score of every byte the sweep may read. The
      quantifier fires only where the code reads a byte, so proofs about
      windows see `e` as plain integers. */
  predicate Decodes(qual: seq<byte>, qualEnd: byte, decoding: Decoding, e: seq<int>) {
    |e| == |qual| + 1
    && forall k {:trigger ByteAt(qual, qualEnd, k)} ::
         0 <= k <= |qual| ==> e[k] == QualityNum(decoding, ByteAt(qual, qualEnd, k))
  }

  /** `(int)(0.1 * N)`, or `N` when that is 0 (reads shorter than 10). */
  function WindowSize(n: nat): (ws: nat)
    ensures n > 0 ==> 1 <= ws <= n
    ensures n == 0 ==> ws == 0
    ensures n >= 10 ==> ws * 10 <= n < ws * 10 + 10
    ensures 0 < n < 10 ==> ws == n
  {
    if n / 10 == 0 then n else n / 10
  }

  /** Sum of `e[lo..hi]`. */
  function Sum(e: seq<int>, lo: nat, hi: nat): int
    requires lo <= hi <= |e|
    decreases hi - lo
  {
    if lo == hi then 0 else e[lo] + Sum(e, lo + 1, hi)
  }

  /** Extending a window by one base at its end adds that base. */
  lemma {:induction false} SumExtend(e: seq<int>, lo: nat, hi: nat)
    requires lo <= hi < |e|
    ensures Sum(e, lo, hi + 1) == Sum(e, lo, hi) + e[hi]
    decreases hi - lo
  {
    if lo < hi {
      SumExtend(e, lo + 1, hi);
    }
  }

  /** Sliding a window one base to the right drops its first base and adds
      the base after its end: the running-sum update of the sweep. */
  lemma SumSlide(e: seq<int>, lo: nat, hi: nat)
    requires lo < hi < |e|
    ensures Sum(e, lo + 1, hi + 1) == Sum(e, lo, hi) - e[lo] + e[hi]
  {
    SumExtend(e, lo, hi);
  }

  /** A window whose bases all score at least `q` sums to at least `q` per base. */
  lemma {:induction false} SumAtLeast(e: seq<int>, lo: nat, hi: nat, q: int)
    requires lo <= hi <= |e|
    requires forall k :: lo <= k < hi ==> e[k] >= q
    ensures Sum(e, lo, hi) >= q * (hi - lo)
    decreases hi - lo
  {
    if lo < hi {
      SumAtLeast(e, lo + 1, hi, q);
      assert q * (hi - lo) == q + q * (hi - (lo + 1));
    }
  }

  /** A non-empty window whose bases all score below `q` sums to less than
      `q` per base. */
  lemma {:induction false} SumBelow(e: seq<int>, lo: nat, hi: nat, q: int)
    requires lo < hi <= |e|
    requires forall k :: lo <= k < hi ==> e[k] < q
    ensures Sum(e, lo, hi) < q * (hi - lo)
    decreases hi - lo
  {
    assert q * (hi - lo) == q + q * (hi - (lo + 1));
    if lo + 1 < hi {
      SumBelow(e, lo + 1, hi, q);
    }
  }

  /** First index in `[lo, hi)` scoring at least `q`. */
  function FirstAtLeast(e: seq<int>, lo: nat, hi: nat, q: int): (r: Option<nat>)
    requires lo <= hi <= |e|
    decreases hi - lo
    ensures r.Some? ==> lo <= r.value < hi && e[r.value] >= q
  {
    if lo == hi then None
    else if e[lo] >= q then Some(lo)
    else FirstAtLeast(e, lo + 1, hi, q)
  }

  /** `FirstAtLeast` finds the first passing index, and finds none only when
      every index in `[lo, hi)` fails. */
  lemma {:induction false} FirstAtLeastSpec(e: seq<int>, lo: nat, hi: nat, q: int)
    requires lo <= hi <= |e|
    decreases hi - lo
    ensures var r := FirstAtLeast(e, lo, hi, q);
            (r.Some? ==> forall k :: lo <= k < r.value ==> e[k] < q)
            && (r.None? ==> forall k :: lo <= k < hi ==> e[k] < q)
  {
    if lo < hi && e[lo] < q {
      FirstAtLeastSpec(e, lo + 1, hi, q);
    }
  }

  /** First index in `[lo, hi)` scoring below `q`. */
  function FirstBelow(e: seq<int>, lo: nat, hi: nat, q: int): (r: Option<nat>)
    requires lo <= hi <= |e|
    decreases hi - lo
    ensures r.Some? ==> lo <= r.value < hi && e[r.value] < q
  {
    if lo == hi then None
    else if e[lo] < q then Some(lo)
    else FirstBelow(e, lo + 1, hi, q)
  }

  /** `FirstBelow` finds the first failing index, and finds none only when
      every index in `[lo, hi)` passes. */
  lemma {:induction false} FirstBelowSpec(e: seq<int>, lo: nat, hi: nat, q: int)
    requires lo <= hi <= |e|
    decreases hi - lo
    ensures var r := FirstBelow(e, lo, hi, q);
            (r.Some? ==> forall k :: lo <= k < r.value ==> e[k] >= q)
            && (r.None? ==> forall k :: lo <= k < hi ==> e[k] >= q)
  {
    if lo < hi && e[lo] >= q {
      FirstBelowSpec(e, lo + 1, hi, q);
    }
  }

  /** A window whose average reaches `q` holds a base that reaches `q`. */
  lemma HighWindowHasHighBase(e: seq<int>, lo: nat, hi: nat, q: int)
    requires lo < hi <= |e|
    requires Sum(e, lo, hi) >= q * (hi - lo)
    ensures FirstAtLeast(e, lo, hi, q).Some?
  {
    FirstAtLeastSpec(e, lo, hi, q);
    if FirstAtLeast(e, lo, hi, q).None? {
      SumBelow(e, lo, hi, q);
    }
  }

  /** A window whose average is below `q` holds a base below `q`. */
  lemma LowWindowHasLowBase(e: seq<int>, lo: nat, hi: nat, q: int)
    requires lo <= hi <= |e|
    requires Sum(e, lo, hi) < q * (hi - lo)
    ensures FirstBelow(e, lo, hi, q).Some?
  {
    FirstBelowSpec(e, lo, hi, q);
    if FirstBelow(e, lo, hi, q).None? {
      SumAtLeast(e, lo, hi, q);
    }
  }

  /** Over a read of `n` bases (scores `e`, the last one the byte past the
      read), the 3' sweep stops at window `w` when the window's average is
      below `q` or the window runs past the read. */
  predicate IsStop(e: seq<int>, n: nat, ws: nat, q: int, w: nat)
    requires |e| == n + 1
  {
    w + ws > n || Sum(e, w, w + ws) < q * ws
  }

  /** The window the sweep stops at, searching from `w` while `w < n`; none
      when it runs off the end of the read, which only a one-base window
      (or an empty read) can do. */
  function StopWindow(e: seq<int>, n: nat, ws: nat, q: int, w: nat): (r: Option<nat>)
    requires |e| == n + 1 && w + ws <= n + 1
    decreases n - w
    ensures r.Some? ==> w <= r.value < n && r.value + ws <= n + 1
    ensures r.None? && w < n ==> !IsStop(e, n, ws, q, n - 1)
  {
    if w >= n then None
    else if IsStop(e, n, ws, q, w) then Some(w)
    else StopWindow(e, n, ws, q, w + 1)
  }

  /** `StopWindow` finds the first stopping window at or after `w`, and
      finds none only when no window before `n` stops the sweep. */
  lemma {:induction false} StopWindowSpec(e: seq<int>, n: nat, ws: nat, q: int, w: nat)
    requires |e| == n + 1 && w + ws <= n + 1
    decreases n - w
    ensures var r := StopWindow(e, n, ws, q, w);
            (r.Some? ==> IsStop(e, n, ws, q, r.value) && forall k :: w <= k < r.value ==> !IsStop(e, n, ws, q, k))
            && (r.None? ==> forall k :: w <= k < n ==> !IsStop(e, n, ws, q, k))
  {
    if w < n && !IsStop(e, n, ws, q, w) {
      StopWindowSpec(e, n, ws, q, w + 1);
    }
  }

  /** When every window before `w` lets the sweep pass and `w` stops it, the
      sweep stops at `w`. */
  lemma StopWindowAt(e: seq<int>, n: nat, ws: nat, q: int, w: nat)
    requires |e| == n + 1 && ws <= n && w < n
    requires forall k :: 0 <= k < w ==> !IsStop(e, n, ws, q, k)
    requires IsStop(e, n, ws, q, w)
    ensures StopWindow(e, n, ws, q, 0) == Some(w)
  {
    StopWindowSpec(e, n, ws, q, 0);
  }

  /** When no window before the end of the read stops the sweep, it runs out. */
  lemma StopWindowNone(e: seq<int>, n: nat, ws: nat, q: int)
    requires |e| == n + 1 && ws <= n
    requires forall k :: 0 <= k < n ==> !IsStop(e, n, ws, q, k)
    ensures StopWindow(e, n, ws, q, 0) == None
  {
    StopWindowSpec(e, n, ws, q, 0);
  }

  /** The 5' search accepts window `w` when its average reaches `q`. */
  predicate IsHigh(e: seq<int>, ws: nat, q: int, w: nat)
    requires w + ws <= |e|
  {
    Sum(e, w, w + ws) >= q * ws
  }

  /** The first window in `[lo, limit)` whose average reaches `q`. Recursing
      on the upper end makes "one more window" a single unfolding. */
  function HighWindow(e: seq<int>, ws: nat, q: int, lo: nat, limit: nat): (r: Option<nat>)
    requires lo <= limit && limit + ws <= |e| + 1
    decreases limit - lo
    ensures r.Some? ==> lo <= r.value < limit
  {
    if limit == lo then None
    else
      match HighWindow(e, ws, q, lo, limit - 1)
      case Some(w) => Some(w)
      case None => if IsHigh(e, ws, q, limit - 1) then Some(limit - 1) else None
  }

  /** `HighWindow` finds the first window in `[lo, limit)` whose average
      reaches `q`, and finds none only when no such window exists. */
  lemma {:induction false} HighWindowSpec(e: seq<int>, ws: nat, q: int, lo: nat, limit: nat)
    requires lo <= limit && limit + ws <= |e| + 1
    decreases limit - lo
    ensures var r := HighWindow(e, ws, q, lo, limit);
            (r.Some? ==> IsHigh(e, ws, q, r.value) && forall k :: lo <= k < r.value ==> !IsHigh(e, ws, q, k))
            && (r.None? ==> forall k :: lo <= k < limit ==> !IsHigh(e, ws, q, k))
  {
    if lo < limit {
      HighWindowSpec(e, ws, q, lo, limit - 1);
    }
  }

  /** Scan of `[lo, hi)` for the first base scoring at least `q`, decoding
      each byte as it is read. */
  method ScanAtLeast(qual: seq<byte>, qualEnd: byte, decoding: Decoding, ghost e: seq<int>, lo: nat, hi: nat, q: int)
    returns (r: Option<nat>)
    requires Decodes(qual, qualEnd, decoding, e) && lo <= hi <= |qual| + 1
    ensures r == FirstAtLeast(e, lo, hi, q)
  {
    var j := lo;
    while j < hi
      invariant lo <= j <= hi
      invariant FirstAtLeast(e, lo, hi, q) == FirstAtLeast(e, j, hi, q)
    {
      if QualityNum(decoding, ByteAt(qual, qualEnd, j)) >= q {
        return Some(j);
      }
      j := j + 1;
    }
    return None;
  }

  /** Scan of `[lo, hi)` for the first base scoring below `q`. */
  method ScanBelow(qual: seq<byte>, qualEnd: byte, decoding: Decoding, ghost e: seq<int>, lo: nat, hi: nat, q: int)
    returns (r: Option<nat>)
    requires Decodes(qual, qualEnd, decoding, e) && lo <= hi <= |qual| + 1
    ensures r == FirstBelow(e, lo, hi, q)
  {
    var j := lo;
    while j < hi
      invariant lo <= j <= hi
      invariant FirstBelow(e, lo, hi, q) == FirstBelow(e, j, hi, q)
    {
      if QualityNum(decoding, ByteAt(qual, qualEnd, j)) < q {
        return Some(j);
      }
      j := j + 1;
    }
    return None;
  }

  /** Sum of the first `ws` scores, decoding each byte as it is read. */
  method InitialWindowTotal(qual: seq<byte>, qualEnd: byte, decoding: Decoding, ghost e: seq<int>, ws: nat)
    returns (total: int)
    requires Decodes(qual, qualEnd, decoding, e) && ws <= |qual|
    ensures total == Sum(e, 0, ws)
  {
    total := 0;
    var i := 0;
    while i < ws
      invariant 0 <= i <= ws
      invariant total == Sum(e, 0, i)
    {
      SumExtend(e, 0, i);
      total := total + QualityNum(decoding, ByteAt(qual, qualEnd, i));
      i := i + 1;
    }
  }

  /** The slide: subtract the score leaving the window, add the one entering
      it (at the last step, the byte past the read). */
  method SlideWindow(qual: seq<byte>, qualEnd: byte, decoding: Decoding, ghost e: seq<int>,
                     windowStart: nat, windowSize: nat, windowTotal: int)
    returns (total: int)
    requires Decodes(qual, qualEnd, decoding, e) && windowStart + windowSize <= |qual|
    requires windowTotal == Sum(e, windowStart, windowStart + windowSize)
    ensures total == Sum(e, windowStart + 1, windowStart + 1 + windowSize)
  {
    if windowSize > 0 {
      SumSlide(e, windowStart, windowStart + windowSize);
    }
    total := windowTotal - QualityNum(decoding, ByteAt(qual, qualEnd, windowStart));
    total := total + QualityNum(decoding, ByteAt(qual, qualEnd, windowStart + windowSize));
  }
}
